=== FILE: README.md ===
# resonance-canvas per-frame rules, in Dafny

This project models the per-frame behaviour of the visualiser's interactive
layers. These are the components under `src/components/` that keep particles
or effects and update them on every frame:

- the 5000-star field (`ParticleSystem`);
- the click bursts (`StarBurst`);
- the ripple generator (`RippleEffect`);
- the drag tracker (`DragEffect`) and its particle spray (`DragParticles`);
- the pointer trail (`MouseTrail`);
- the glow shell (`GlowLayer`);
- the magnetic ring (`MagneticField`);
- the click-spawned shapes (`GeometryGenerator`);
- the spectrum normaliser (`AudioVisualizer`).

Each component is one module. A frame is a pure function, or a method with a
loop for the buffer-filling steps. It maps the component's state, the pointer,
the frame time and the random draws to the next state. Shared pieces have their
own modules:

- `Maths`: vectors, colours, the linear falloff `max(0, 1 - d/r)`, lerp and the
  index arithmetic.
- `Picking`: the click-point resolution. It uses the ray hit when there is one,
  otherwise the point where the normalised camera ray meets the plane `z = 0`.
- `Pool`: map, filter and keep-the-newest-n over sequences.
- `Sprites`: the sprite buffers shared by bursts and drag particles.

Everything the components take from outside the model is a parameter:

- The maths library (`sqrt`, `sin`, `cos`, `atan2`, `acos`, and `Color.setHSL`)
  is the `Maths.Libm` record. `Maths.Lawful` gives it the laws the proofs rely
  on: square roots of non-negatives, `sin² + cos² = 1`, `sin` and `cos` in
  [-1, 1], and HSL colours in the unit cube.
- The stream of `Math.random()` results is an `Rng`, a function from call index
  to a real. `UnitDraws` says every draw lies in [0, 1).
- The clock, the frame time, the pointer, the ray-cast hit and the camera are
  plain arguments.

## Model

| member | source | states |
|---|---|---|
| `Maths.Falloff` | src/components/ParticleSystem.tsx:132-133 | the radial falloff is in [0, 1], is 1 at the centre, is 0 exactly from the radius outwards, and inside it adds up with `d/radius` to 1 |
| `Maths.FalloffAntitone` | src/components/GlowLayer.tsx:60-61 | a nearer point is never attenuated more than a farther one |
| `Maths.Lerp` | src/components/RippleEffect.tsx:76 | after a lerp by `t` the remaining gap is `(1 - t)` times the old gap, and for `t` in [0, 1] the result lies between the two ends |
| `Maths.VLerp` | src/components/GlowLayer.tsx:44 | the vector lerp closes the gap to the target by the fraction `t` |
| `Maths.Clamp1` | src/components/ParticleSystem.tsx:150-152 | `Math.min(1, v)` never exceeds 1, keeps non-negatives non-negative and leaves values up to 1 unchanged |
| `Maths.ScaledIndex` | src/components/GeometryGenerator.tsx:27 | `floor(r * len)` for a draw in [0, 1) is a valid index of a non-empty array |
| `Maths.BinIndex` | src/components/ParticleSystem.tsx:297 | `floor((i / count) * len)` is a valid bin of a non-empty spectrum |
| `Maths.SampleOrZero` | src/components/ParticleSystem.tsx:298 | `audio[k] \|\| 0` is the sample in range and 0 outside |
| `Maths.Normalize` | src/components/ParticleSystem.tsx:258-262 | normalising leaves the zero vector alone and scales any other vector by the reciprocal of its length to unit length |
| `Maths.Dist` | src/components/ParticleSystem.tsx:126-129 | the distance is non-negative and its square is the squared norm of the difference |
| `Maths.DistToSelf` | src/components/ParticleSystem.tsx:126-129 | a point is at distance 0 from itself |
| `Picking.PlaneFallback` | src/components/RippleEffect.tsx:41-45 | without a hit, the click point lies on `z = 0` along the camera ray |
| `Picking.FallbackIgnoresLength` | src/components/StarBurst.tsx:80-84 | rescaling the ray direction does not move the fallback point, so the normalisation does not matter |
| `Picking.FallbackHitsAimedPoint` | src/components/DragEffect.tsx:46-50 | a ray aimed at a point of the plane `z = 0` lands on exactly that point |
| `Picking.PickPoint` | src/components/GeometryGenerator.tsx:105-114 | a hit is used as it is; otherwise the point is on the plane `z = 0` |
| `Pool.Map` | src/components/MouseTrail.tsx:40-44 | mapping keeps the length and transforms each element in place |
| `Pool.Filter` | src/components/MouseTrail.tsx:45 | filtering never grows the list and keeps only elements that pass the test |
| `Pool.FilterCounts` | src/components/RippleEffect.tsx:103 | a filter keeps every passing element with its multiplicity and drops every other |
| `Pool.FilterAppend` | src/components/StarBurst.tsx:120 | filtering distributes over concatenation, so relative order is kept |
| `Pool.FilterKeepsPassing` | src/components/DragParticles.tsx:72 | every element that passes the test is kept |
| `Pool.FilterKeepsAll` | src/components/DragParticles.tsx:72 | a filter everything passes is the identity |
| `Pool.FilterKeepsNone` | src/components/MouseTrail.tsx:45 | a filter nothing passes leaves the empty list |
| `Pool.TakeLast` | src/components/MouseTrail.tsx:31 | `slice(-n)` keeps the last `min(len, n)` elements as a suffix |
| `Pool.TakeLastKeepsNewest` | src/components/DragParticles.tsx:56 | appending at most `n` elements and keeping the last `n` keeps all of the new ones |
| `Sprites.DrawOne` | src/components/StarBurst.tsx:137-143 | pushing one sprite's position, colour and `size * life` extends a drawing of `ps` to a drawing of `ps + [p]` |
| `Sprites.Render` | src/components/DragParticles.tsx:76-90 | nothing is drawn for an empty pool; otherwise the buffers hold every sprite's position, colour and `size * life` in order |
| `RippleEffect.ClickRipple` | src/components/RippleEffect.tsx:49-57 | a click ripple starts at the picked point with radius 0, maximum radius 80, intensity 1 and speed 1.5, and is live |
| `RippleEffect.OnClick` | src/components/RippleEffect.tsx:27-60 | a click appends one click ripple at the picked point, keeps the existing ripples and the pointer registers, and keeps the list live |
| `RippleEffect.SmoothSpeed` | src/components/RippleEffect.tsx:75-76 | the pointer speed moves 10% of the way to the frame's displacement and stays between the two |
| `RippleEffect.MovementRipple` | src/components/RippleEffect.tsx:79-91 | a ripple spawns exactly when the smoothed speed exceeds 0.5 and the draw is below 0.3; its maximum radius is `20 + 5v` (over 22.5), its intensity `min(0.3v, 1)` in (0.15, 1], its speed 0.8 |
| `RippleEffect.Advance` | src/components/RippleEffect.tsx:98-102 | the radius grows by `speed * delta * 60`, the intensity is scaled by `1 - radius/maxRadius` with the radius read before growth, and nothing else changes |
| `RippleEffect.AdvanceAll` | src/components/RippleEffect.tsx:97-102 | every ripple is advanced in place |
| `RippleEffect.UpdateRipples` | src/components/RippleEffect.tsx:96-104 | the update never grows the list; every kept ripple is inside its maximum radius with intensity over 0.01; every advanced ripple that passes is kept |
| `RippleEffect.UpdateKeepsOrder` | src/components/RippleEffect.tsx:96-104 | updating a concatenation is the concatenation of the updates, so survivors keep their order |
| `RippleEffect.AdvanceFades` | src/components/RippleEffect.tsx:100-101 | for a live ripple the intensity never rises and stays in [0, 1], and the radius never shrinks |
| `RippleEffect.SurvivorLive` | src/components/RippleEffect.tsx:98-103 | an advanced live ripple that passes the filter is live again |
| `RippleEffect.UpdateKeepsLive` | src/components/RippleEffect.tsx:96-104 | the update maps a live list to a live list |
| `RippleEffect.SurvivalBoundsSteps` | src/components/RippleEffect.tsx:100-103 | a ripple kept for `k` frames has moved its front `k` steps and is still inside its maximum radius |
| `RippleEffect.RetiredWithinBound` | src/components/RippleEffect.tsx:100-103 | at a fixed frame time, every ripple is removed within `ceil(maxRadius / (speed * 60 * delta))` frames |
| `RippleEffect.Frame` | src/components/RippleEffect.tsx:73-105 | a frame records the pointer, updates the smoothed speed, adds at most one ripple and keeps the list live; its list is the update of the old ripples, in order, followed by the update of the movement ripple if one spawned |
| `DragEffect.MouseDown` | src/components/DragEffect.tsx:32-62 | a mouse-down starts a drag at the picked point with intensity 1, sets the start, current and last positions to it and keeps the velocities |
| `DragEffect.MouseUp` | src/components/DragEffect.tsx:65-71 | a mouse-up ends the drag with intensity 0 and changes nothing else |
| `DragEffect.IntensityOf` | src/components/DragEffect.tsx:98 | the drag intensity is `0.05` times the smoothed speed, capped at 1, and reaches 1 exactly from speed 20 |
| `DragEffect.Tick` | src/components/DragEffect.tsx:84-111 | while dragging, the smoothed velocity closes 30% of the gap to the displacement over the frame time and the drag follows the pointer with intensity from the smoothed speed; otherwise a positive intensity fades by `2 * delta` down to 0; validity is kept |
| `DragEffect.IdleTickIsIdentity` | src/components/DragEffect.tsx:102-110 | since a mouse-up zeroes the intensity, a frame between drags changes nothing |
| `DragEffect.StillPointerDecays` | src/components/DragEffect.tsx:87-92 | a pointer held still during a drag shrinks the smoothed velocity by 30% per frame |
| `DragEffect.RunKeepsValid` | src/components/DragEffect.tsx:53-110 | any sequence of mouse-downs, mouse-ups and frames keeps the intensity in [0, 1] and 0 while not dragging |
| `DragEffect.StartOnlyMovesOnDown` | src/components/DragEffect.tsx:53-70 | the start position changes only on a mouse-down |
| `DragParticles.EmitCount` | src/components/DragParticles.tsx:31 | an emission has 5 to 15 particles for an intensity in [0, 1] |
| `DragParticles.ThrowSpeed` | src/components/DragParticles.tsx:36 | the throw speed of a unit draw is in [0.1, 0.6) |
| `DragParticles.Launch` | src/components/DragParticles.tsx:39-53 | a particle starts at the drag point with life 1, its velocity plus a tenth of the drag velocity has the drawn throw speed as length, its size is in [0.2, 1.0) and its colour is in the unit cube |
| `DragParticles.Emit` | src/components/DragParticles.tsx:31-54 | a batch holds 5 to 15 freshly launched particles of life 1 |
| `DragParticles.Age` | src/components/DragParticles.tsx:63-71 | a frame moves a particle by `velocity * delta * 60`, slows it by 2%, takes `0.8 * delta` of life, scales its size by `1 - 0.3 * delta` and keeps its colour |
| `DragParticles.AgeAll` | src/components/DragParticles.tsx:62-71 | every particle is aged in place |
| `DragParticles.UpdatePool` | src/components/DragParticles.tsx:61-73 | the update never grows the pool, keeps only aged particles that are still alive, and keeps every aged particle that is |
| `DragParticles.UpdateKeepsOrder` | src/components/DragParticles.tsx:61-73 | the update distributes over concatenation, so survivors keep their order |
| `DragParticles.Frame` | src/components/DragParticles.tsx:26-74 | the timer resets exactly on an emission; without a drag the pool never grows; the pool stays within 500; the new pool is the update of the old pool with the batch appended and capped at the newest 500 on an emission, and of the old pool otherwise |
| `DragParticles.FrameKeepsLive` | src/components/DragParticles.tsx:26-74 | frames keep every particle's life in (0, 1] |
| `DragParticles.UpdateAppendSurvivors` | src/components/DragParticles.tsx:61-73 | updating a pool with an appended batch that survives is the update of the pool followed by the aged batch |
| `DragParticles.EmittedBatchKept` | src/components/DragParticles.tsx:56-73 | an emission in a frame shorter than 1.25 s leaves the whole aged batch at the end of the pool |
| `DragParticles.DriftDecays` | src/components/DragParticles.tsx:68-69 | after `n` frames the velocity is `0.98^n` times the original and the life has fallen by `n * 0.8 * delta` |
| `DragParticles.Render` | src/components/DragParticles.tsx:76-90 | nothing is drawn for an empty pool; otherwise the buffers hold every particle in order |
| `MouseTrail.NewPoint` | src/components/MouseTrail.tsx:25-29 | a trail point starts at the pointer with life 1 and a size in [0.3, 0.8) |
| `MouseTrail.Fade` | src/components/MouseTrail.tsx:40-44 | a frame takes `2 * delta` of life, scales the size by `1 - 0.5 * delta` and keeps the position |
| `MouseTrail.FadeShrinks` | src/components/MouseTrail.tsx:43 | for frames under 2 s a point shrinks but keeps a positive size |
| `MouseTrail.FadeAll` | src/components/MouseTrail.tsx:39-44 | every point is aged in place |
| `MouseTrail.UpdateTrail` | src/components/MouseTrail.tsx:38-46 | the update never grows the trail, keeps exactly the aged points with positive life, and each kept point is an aged old point |
| `MouseTrail.UpdateKeepsOrder` | src/components/MouseTrail.tsx:38-46 | the update distributes over concatenation, so surviving points keep their order |
| `MouseTrail.Queued` | src/components/MouseTrail.tsx:24-34 | on an emission the trail becomes the newest 50 of the old trail plus the new point, in insertion order: the new point is last and the points before it are the most recent old points; otherwise it is unchanged; live trails stay live |
| `MouseTrail.Frame` | src/components/MouseTrail.tsx:20-47 | a frame records the pointer; the timer resets exactly on an emission and otherwise accumulates while the trail does not grow; the trail stays within 50; the new trail is the update of the queued trail (`MouseTrail.Queued`) |
| `MouseTrail.FrameKeepsInvariant` | src/components/MouseTrail.tsx:20-47 | frames keep at most 50 points, each with life in (0, 1] |
| `MouseTrail.UpdateAppendVisible` | src/components/MouseTrail.tsx:38-46 | updating a trail with one appended surviving point is the update of the trail followed by that aged point |
| `MouseTrail.NewestPointKept` | src/components/MouseTrail.tsx:24-46 | a point dropped in a frame under 0.5 s is the newest trail point, aged by that frame |
| `MouseTrail.LongFrameClears` | src/components/MouseTrail.tsx:38-46 | a frame of 0.5 s or more empties a live trail |
| `MouseTrail.Render` | src/components/MouseTrail.tsx:49-61 | nothing is drawn for an empty trail; otherwise positions, sizes `size * life` and opacities `life` in order |
| `StarBurst.ParticleCount` | src/components/StarBurst.tsx:28 | a burst has 30 to 49 particles |
| `StarBurst.LaunchSpeed` | src/components/StarBurst.tsx:33 | a particle's speed is in [0.1, 0.4) |
| `StarBurst.Elevation` | src/components/StarBurst.tsx:34 | the elevation is in [-PI/4, PI/4) |
| `StarBurst.FanAngle` | src/components/StarBurst.tsx:32 | the fan angles are in [0, 2 PI) |
| `StarBurst.Spawn` | src/components/StarBurst.tsx:36-50 | a particle starts at the burst point with life 1 and a unit-cube colour; its velocity has the drawn speed as length and `cos(elevation) * speed` as horizontal length; its size is in [0.2, 0.7) |
| `StarBurst.CreateBurst` | src/components/StarBurst.tsx:27-61 | a burst sits at the given point with 30 to 49 spawned particles |
| `StarBurst.OnClick` | src/components/StarBurst.tsx:64-88 | a click appends exactly the burst created at the picked point (30 to 49 particles) and keeps the others |
| `StarBurst.AudioSample` | src/components/StarBurst.tsx:113-114 | a sample is taken exactly when the buffer is non-empty, and for a unit draw it is an element of the buffer |
| `StarBurst.Step` | src/components/StarBurst.tsx:100-119 | a frame moves by `velocity * delta * 60`, takes `delta / 2` of life, keeps the colour, and with a sample scales the velocity by `1 + 0.2a` and the size by `1 + 0.5a` |
| `StarBurst.FlyVelocity` | src/components/StarBurst.tsx:107-110 | over `n` silent frames the horizontal velocity is unchanged and the vertical velocity and the life each fall by `n * delta / 2` |
| `StarBurst.FlyIsBallistic` | src/components/StarBurst.tsx:102-107 | over `n` silent frames a particle follows the discrete ballistic closed form |
| `StarBurst.FlyHorizontal` | src/components/StarBurst.tsx:102-104 | the horizontal position moves by `n * delta * 60 * v` |
| `StarBurst.FlyHorizontalSteps` | src/components/StarBurst.tsx:102-104 | the horizontal position after `n` frames is the `n`-step line from the start |
| `StarBurst.LineClosedForm` | src/components/StarBurst.tsx:102-104 | `n` equal steps sum to `n` times the step |
| `StarBurst.FlyHeight` | src/components/StarBurst.tsx:102-107 | the height after `n` frames is `y0 + h (n vy - n(n-1)/2 g)` |
| `StarBurst.FlyHeightSteps` | src/components/StarBurst.tsx:102-107 | the height after `n` frames is the step-by-step sum of the falling vertical velocity |
| `StarBurst.HeightClosedForm` | src/components/StarBurst.tsx:102-107 | that sum has the closed form above |
| `StarBurst.UpdateBurst` | src/components/StarBurst.tsx:99-126 | a burst keeps its id and position, never gains particles, keeps only live stepped particles and keeps every stepped particle that is live |
| `StarBurst.UpdateBursts` | src/components/StarBurst.tsx:97-128 | the list never grows, every kept burst is non-empty with live particles, each is the update of an old one, and every old burst whose update is non-empty is kept |
| `StarBurst.UpdateLowersLives` | src/components/StarBurst.tsx:110 | a frame lowers every life bound by `delta / 2` and leaves the list valid |
| `StarBurst.NoLivesLeft` | src/components/StarBurst.tsx:120-127 | a valid non-empty list has positive lives |
| `StarBurst.RunLowersLives` | src/components/StarBurst.tsx:96-129 | over a run every life bound falls by half the elapsed time |
| `StarBurst.BurstsExpire` | src/components/StarBurst.tsx:96-129 | after 2 s of frames every burst has gone |
| `StarBurst.FlattenCovers` | src/components/StarBurst.tsx:137-143 | non-empty bursts give at least one particle each |
| `StarBurst.Render` | src/components/StarBurst.tsx:132-148 | nothing is drawn exactly when there are no particles; otherwise the buffers hold every particle of every burst in order |
| `StarBurst.RenderEmptyIffNoBursts` | src/components/StarBurst.tsx:127-148 | between frames nothing is drawn exactly when there is no burst |
| `GlowLayer.ShellRadius` | src/components/GlowLayer.tsx:24 | the shell radius of a unit draw is in [80, 120) |
| `GlowLayer.ShellPoint` | src/components/GlowLayer.tsx:28-30 | a shell point lies on the sphere of the drawn radius |
| `GlowLayer.BaseSizeBounds` | src/components/GlowLayer.tsx:38 | a base size is between one and three times the scale, strictly below three times a positive scale |
| `GlowLayer.ShellPoints` | src/components/GlowLayer.tsx:20-30 | each point lies on the sphere of its own drawn radius |
| `GlowLayer.BaseSizes` | src/components/GlowLayer.tsx:38 | each base size comes from its own draw and lies between one and three times the scale |
| `GlowLayer.Build` | src/components/GlowLayer.tsx:16-39 | one render's layer has one position, colour (0.8, 0.8, 1.0) and base size per point, each point on its shell |
| `GlowLayer.GlowSizeBounds` | src/components/GlowLayer.tsx:61-64 | a frame size is between half and seven and a half times the scale, strictly below seven and a half times a positive scale, and half the base size outside the spotlight |
| `GlowLayer.NearerGlowsLarger` | src/components/GlowLayer.tsx:57-64 | for the same draw, a nearer point glows at least as large |
| `GlowLayer.Frame` | src/components/GlowLayer.tsx:41-68 | the smoothed pointer closes 10% of its gap; each size is recomputed from a fresh draw and the distance; the callback leaves the positions and colours it is given unchanged; with draws in [0, 1) and a non-negative scale every size lies in [0.5·scale, 7.5·scale], and strictly below 7.5·scale when the scale is positive |
| `MagneticField.Build` | src/components/MagneticField.tsx:18-28 | 200 points on rings of radius `20 + 30r` at height `(r - 0.5) * 20`, with sizes in [0.1, 0.6) |
| `MagneticField.RingRadius` | src/components/MagneticField.tsx:41 | the breathing radius stays in [5, 25] |
| `MagneticField.RingHeight` | src/components/MagneticField.tsx:42 | the wave height stays in [-10, 10] |
| `MagneticField.RingPoint` | src/components/MagneticField.tsx:44-46 | a ring point is at the given horizontal radius and height from the centre |
| `MagneticField.FieldPoint` | src/components/MagneticField.tsx:40-46 | each frame point is at a horizontal distance between 5 and 25 from the pointer and within 10 of its height |
| `MagneticField.EvenlySpaced` | src/components/MagneticField.tsx:40 | neighbouring points are 1/200 of a turn apart |
| `MagneticField.TurnsSteadily` | src/components/MagneticField.tsx:40 | the ring turns at 0.5 rad/s |
| `MagneticField.FollowsPointer` | src/components/MagneticField.tsx:44-46 | moving the pointer translates the whole ring |
| `MagneticField.Frame` | src/components/MagneticField.tsx:38-47 | a frame rewrites all 200 positions from the clock and the pointer alone |
| `GeometryGenerator.KindIndex` | src/components/GeometryGenerator.tsx:27 | the random pick always names one of the six kinds |
| `GeometryGenerator.CreateShape` | src/components/GeometryGenerator.tsx:26-60 | a shape gets the picked kind, sits at the given point with scale in [0.5, 2.5), a unit-cube colour, glow 0.2 and no rotation |
| `GeometryGenerator.OnClick` | src/components/GeometryGenerator.tsx:93-117 | a click appends exactly the shape created at the picked point and keeps the others |
| `GeometryGenerator.Attract` | src/components/GeometryGenerator.tsx:79-81 | a shape closes `influence / 100` of its gap to the pointer |
| `GeometryGenerator.AttractShrinks` | src/components/GeometryGenerator.tsx:76-81 | the pull scales the distance to the pointer by `1 - influence/100`, so it never grows |
| `GeometryGenerator.Influence` | src/components/GeometryGenerator.tsx:77-84 | within 20 the influence is in (0, 1] and the glow in (0.2, 1] |
| `GeometryGenerator.UpdateShape` | src/components/GeometryGenerator.tsx:64-87 | a shape's scale is `1 + 0.5a` of its bin's sample, each rotation grows by `0.01 (1 + a)`, it is pulled and glows within 20 of the pointer and is otherwise left in place |
| `GeometryGenerator.Frame` | src/components/GeometryGenerator.tsx:62-90 | without an audio buffer nothing changes; otherwise every shape is updated in place from its own bin |
| `GeometryGenerator.BinInRange` | src/components/GeometryGenerator.tsx:67-68 | with a non-empty buffer every shape reads an in-range bin |
| `GeometryGenerator.EmptyAudioResetsScale` | src/components/GeometryGenerator.tsx:63-71 | an empty buffer is not skipped: every shape reads 0 and is reset to scale 1 |
| `AudioVisualizer.Normalise` | src/components/AudioVisualizer.tsx:72 | a bin normalises to 0 at or below -100 dB and to `(db + 100)/100 * sensitivity` above, non-negative for a non-negative sensitivity |
| `AudioVisualizer.NormaliseMonotone` | src/components/AudioVisualizer.tsx:72 | a louder bin never normalises to less |
| `AudioVisualizer.NormaliseLinear` | src/components/AudioVisualizer.tsx:72 | above -100 dB, equal decibel steps give equal output steps |
| `AudioVisualizer.Frame` | src/components/AudioVisualizer.tsx:63-78 | without an analyser nothing is produced; otherwise every bin is normalised into the buffer at its index and later entries keep their value |
| `AudioVisualizer.ConfiguredSizeFillsBuffer` | src/components/AudioVisualizer.tsx:13-23 | with FFT size 256 the 128 bins fill the 128-entry buffer exactly, every entry non-negative |
| `ParticleSystem.SmoothPointer` | src/components/ParticleSystem.tsx:92-94 | the smoothed pointer closes a fifth of its gap to the pointer, and the smoothed velocity closes 30% of its gap to the displacement from the old smoothed pointer |
| `ParticleSystem.SmoothingConverges` | src/components/ParticleSystem.tsx:94 | with the pointer held still, the gap after `n` frames is `0.8^n` times the first gap |
| `ParticleSystem.DriftSpeed` | src/components/ParticleSystem.tsx:115 | the drift speed is in [0.02, 0.039] |
| `ParticleSystem.Drift` | src/components/ParticleSystem.tsx:115-123 | the drift keeps a star's distance from the vertical axis and moves its height by at most 0.02 |
| `ParticleSystem.DriftKeepsAxisDistance` | src/components/ParticleSystem.tsx:116-120 | the drift keeps the horizontal radius |
| `ParticleSystem.Spotlight` | src/components/ParticleSystem.tsx:126-133 | the spotlight is in [0, 1] and 0 exactly from 35 away |
| `ParticleSystem.FullSpotlightAtPointer` | src/components/ParticleSystem.tsx:129-133 | a star on the smoothed pointer is fully lit |
| `ParticleSystem.TwinkleAsWritten` | src/components/ParticleSystem.tsx:136-138 | the twinkle as written lies in [-0.1, 1.5] |
| `ParticleSystem.Twinkle` | src/components/ParticleSystem.tsx:136-138 | the corrected twinkle is in [0, 1.5] and equals the written one wherever that is non-negative |
| `ParticleSystem.Boost` | src/components/ParticleSystem.tsx:149-152 | brightening a unit-cube colour keeps it in the unit cube and never darkens a channel |
| `ParticleSystem.SpotlightLookAsWritten` | src/components/ParticleSystem.tsx:144-152 | the spotlight stage as written keeps colours in the unit cube |
| `ParticleSystem.NearPointerSpotlight` | src/components/ParticleSystem.tsx:129-133 | within 3.5 of the smoothed pointer the spotlight is at least 0.9 |
| `ParticleSystem.NegativeSizeAsWritten` | src/components/ParticleSystem.tsx:136-146 | as written, a star with spotlight at least 0.9 at a moment when both twinkle sines are at most -0.95 gets a negative size |
| `ParticleSystem.SpotlightLook` | src/components/ParticleSystem.tsx:136-152 | the corrected stage gives sizes in [0, 7.5 baseSize], the written colour, and the written look wherever the twinkle is non-negative |
| `ParticleSystem.SpotlightBrightens` | src/components/ParticleSystem.tsx:148-152 | the spotlight colour stays in the unit cube and is no darker than the base colour |
| `ParticleSystem.WaveIntensity` | src/components/ParticleSystem.tsx:167-171 | within the 5-wide band a wave's strength is in [0, intensity], and positive for a positive intensity |
| `ParticleSystem.MixIsMax` | src/components/ParticleSystem.tsx:155-179 | the ripple effect is the maximum in-band wave strength: non-negative, at least every in-band wave, 0 or one of them, at most 1 with a non-negative tint for live ripples |
| `ParticleSystem.EffectPositiveIffInBand` | src/components/ParticleSystem.tsx:170-182 | with positive intensities the effect is positive exactly when some ripple front passes the star |
| `ParticleSystem.Blend` | src/components/ParticleSystem.tsx:186 | a blended channel is at most 1 and non-negative for non-negative parts |
| `ParticleSystem.Tint` | src/components/ParticleSystem.tsx:186-188 | blending a non-negative tint keeps the colour in the unit cube |
| `ParticleSystem.Grow` | src/components/ParticleSystem.tsx:183 | a non-negative size never shrinks under a non-negative effect |
| `ParticleSystem.RippleLook` | src/components/ParticleSystem.tsx:182-189 | with no effect the look is unchanged; otherwise the size does not shrink and the colour stays in the unit cube |
| `ParticleSystem.NoFrontNoChange` | src/components/ParticleSystem.tsx:160-189 | with no front near the star the ripple stage changes nothing |
| `ParticleSystem.Toward` | src/components/ParticleSystem.tsx:197-199 | the direction to the pointer is a unit vector |
| `ParticleSystem.Pull` | src/components/ParticleSystem.tsx:202-208 | each damped-and-pulled velocity component is at most `0.95` times the old one plus 0.08 |
| `ParticleSystem.Follow` | src/components/ParticleSystem.tsx:192-243 | beyond 50 the velocity decays by 0.98 and is added to the position; within 50 each velocity component obeys the damped bound; velocities within 1.6 per axis stay there |
| `ParticleSystem.DragInfluence` | src/components/ParticleSystem.tsx:247-254 | the drag influence is in [0, intensity] and 0 exactly for zero intensity or from 40 away |
| `ParticleSystem.VortexAttractsAlongDirection` | src/components/ParticleSystem.tsx:265-274 | the swirl is perpendicular to the pull, so the vortex moves a star along the direction by exactly the attraction |
| `ParticleSystem.VortexBounded` | src/components/ParticleSystem.tsx:265-274 | for a direction of length at most 1 the squared length of the vortex step is at most `0.0325 k²` |
| `ParticleSystem.JsRemOne` | src/components/ParticleSystem.tsx:287 | `x % 1` is in [0, 1) for non-negative `x` and in (-1, 0] for negative `x` |
| `ParticleSystem.DragStage` | src/components/ParticleSystem.tsx:246-293 | without an active drag, or with zero influence, nothing changes; the velocity is never touched; the size never shrinks; colours stay in the unit cube |
| `ParticleSystem.AudioInfluence` | src/components/ParticleSystem.tsx:297-299 | with a non-empty buffer the influence is a sample times the sensitivity |
| `ParticleSystem.AudioStage` | src/components/ParticleSystem.tsx:296-307 | without audio nothing changes; with non-negative audio the size never shrinks and colours stay in the unit cube |
| `ParticleSystem.AudioNonNegInfluence` | src/components/ParticleSystem.tsx:299 | non-negative audio gives a non-negative influence |
| `ParticleSystem.UpdateStar` | src/components/ParticleSystem.tsx:105-307 | with the corrected twinkle of the Findings row, a healthy star under safe inputs ends the frame with a non-negative size, a unit-cube colour and a velocity within 1.6 per axis |
| `ParticleSystem.QuietFrameIsSpotlight` | src/components/ParticleSystem.tsx:126-307 | with no front near, no drag and no audio, a star looks as the spotlight stage makes it |
| `ParticleSystem.WriteBack` | src/components/ParticleSystem.tsx:105-311 | slot `i` of the position, size and colour buffers holds star `i`'s updated position, size and colour; the star keeps its base size and colour and takes the updated motion |
| `ParticleSystem.Frame` | src/components/ParticleSystem.tsx:88-313 | a frame smooths the pointer once, updates every star in index order into the flat buffers and keeps base sizes and colours; with the corrected twinkle of the Findings row it keeps every star healthy and every size non-negative |

## Left out

- Shaders, materials and the JSX scene graph are rendering only. The model stops at the attribute buffers.
- The ray cast and `unproject` are left out because the three.js camera is not part of this model. A ray hit is an input `Option`; without a hit the fallback takes the camera-ray direction as an input.
- `Scene.tsx`, `App.tsx`, `ControlPanel.tsx` and `MouseInteraction.tsx` hold wiring and UI and are not part of this model.
- Note on that wiring: the scene mounts neither `DragEffect`, `DragParticles`, `MagneticField` nor `GeometryGenerator`, and passes no drag state to the star field. The model covers them as written, as stand-alone components.
- Microphone capture, `AudioContext` and the analyser are left out. The decibel spectrum and whether an analyser exists are inputs.
- React state batching and scheduling are left out. Each `setState` updater is applied in source order within a frame.
- `StarBurst`'s in-place mutation of particles inside the updater is modelled as a pure step. A StrictMode double invocation of that updater is left out.
- IEEE-754 doubles, `NaN`, and `Float32Array` rounding are left out; numbers are exact reals.
- `Color.setHSL` and `atan2`/`acos` are left out as functions: `setHSL` is an input function that only promises unit-cube channels, and `atan2` and `acos` carry no laws.
- `Date.now()` ids and `createdAt` are left out because nothing reads them. Ids are inputs.
- The mount guards (`if (!ref.current) return`) are left out because they only skip a frame before mounting.
- `ParticleSystem`'s initial star layout (`src/components/ParticleSystem.tsx:38-83`) is left out. Stars are an input subject to `Healthy`.
- The `timeShift`/`hueShift` values (`ParticleSystem.tsx:140-142`) are left out because they are computed and never used.
- `MagneticField`'s `strength` prop is left out because it is never read. Its initial positions are overwritten in the first frame.
- `GeometryGenerator` leaves non-`Mesh` children untouched. The model holds only shapes.
- `DragEffect.Tick` requires a non-zero frame time while dragging, because the source divides by `delta`.
- `ParticleSystem.Follow` requires the star not to sit exactly on the smoothed pointer, because the source divides by that distance unguarded (0/0). `ParticleSystem.UpdateStar` and `ParticleSystem.Frame` inherit this requirement.
- `RippleEffect.Frame` requires a live ripple list and a non-negative frame time. Every list the handlers build is live, and the clock never runs backwards.
- `StarBurst.FlyIsBallistic` and the other `Fly` lemmas cover frames without audio only, because the audio kick depends on the buffer and draws of each frame. `StarBurst.Step` states that kick for one frame.
- `ParticleSystem.Drift` takes the angle step as `time * driftSpeed` with absolute time, as the source does. Since `atan2` has no law here, the contract bounds the distance from the axis and the height, not the angle.
- `GlowLayer.Build` models one render's buffers. The component body draws positions, colours and base sizes afresh with `Math.random()` on every render, outside any memo (`GlowLayer.tsx:14-39`), and the ripple effect hands the scene a new ripple list every frame (`RippleEffect.tsx:68-70`, `RippleEffect.tsx:96-104`), so the scene re-renders, and the layer is redrawn, every frame. The model keeps one build and leaves out the re-draw on re-render.
- `MagneticField.Build` models one render's buffers. The component body likewise redraws them on every render (`MagneticField.tsx:15-28`), and the model keeps one build.
- `ParticleSystem.UpdateStar` and `ParticleSystem.Frame` are built on `ParticleSystem.SpotlightLook`, the corrected spotlight stage of the Findings row, whose twinkle is clamped at 0. The source's frame can write a negative size (`ParticleSystem.NegativeSizeAsWritten`). So their non-negative size, and the health they keep, hold of the corrected program, not of the code as written. Positions, velocities and colours are the same in both, because the clamp touches only the size.
- The glow layer's sizes are redrawn from `Math.random()` every frame, as the source does. The model's draws for a frame are the `rng` argument.

Behaviours of the code that its own comments or the component design suggest otherwise; the model follows the code in each:

- A mouse-up zeroes the drag intensity at once (`DragEffect.tsx:65-71`), so the fade-out branch (`DragEffect.tsx:104-109`) never runs. See `DragEffect.IdleTickIsIdentity`.
- The sensitivity is applied twice on the audio path: once in `AudioVisualizer.tsx:72` and again in `ParticleSystem.tsx:299`.
- `GeometryGenerator` does not skip an empty, non-null buffer. Every shape then reads 0 and is reset to scale 1 (`GeometryGenerator.EmptyAudioResetsScale`).

## Findings

| source | as written | input that shows it | evidently intended | confidence | as-written member | corrected member |
|---|---|---|---|---|---|---|
| src/components/ParticleSystem.tsx:136-146 | `twinkle = 0.3 sin(3t + 0.5i) + 0.7 + 0.5 sin(10t + i) * spotlight` goes below 0 when both sines are near -1 and the spotlight is above 0.8, so the star's size is negative | a star with positive base size within 3.5 of the smoothed pointer (spotlight at least 0.9, `ParticleSystem.NearPointerSpotlight`) at a time when `sin(3t + 0.5i)` and `sin(10t + i)` are both at most -0.95: the twinkle is at most -0.0125, so the size is below 0 | a non-negative twinkle, hence a non-negative size | not executed | `ParticleSystem.NegativeSizeAsWritten` | `ParticleSystem.SpotlightLook` |

=== FILE: audio_visualizer.dfy ===
/**
  The per-frame normalisation of `AudioVisualizer.tsx`: the analyser's
  decibel spectrum is mapped linearly from [-100, 0] dB onto [0, 1], clamped
  below at 0, scaled by the sensitivity and written into a 128-entry buffer.
 */
module AudioVisualizer {
  import opened Maths

  /** The analyser's FFT size as configured. */
  const FftSize: nat := 256

  /** The shared buffer's length. */
  const BufferLength: nat := 128

  /**
    The number of frequency bins an analyser reports: half its FFT size, as
    the `frequencyBinCount` attribute of the AnalyserNode interface of the
    W3C Web Audio API defines it.
   */
  function FrequencyBinCount(fftSize: nat): nat {
    fftSize / 2
  }

  /** `Math.max(0, (db + 100) / 100) * sensitivity`. */
  function Normalise(db: real, sensitivity: real): (v: real)
    ensures 0.0 <= sensitivity ==> 0.0 <= v
    ensures db <= -100.0 ==> v == 0.0
    ensures -100.0 <= db ==> v == (db + 100.0) / 100.0 * sensitivity
  {
    Max(0.0, (db + 100.0) / 100.0) * sensitivity
  }

  /** A louder bin never normalises to less, for a non-negative sensitivity. */
  lemma NormaliseMonotone(db1: real, db2: real, sensitivity: real)
    requires db1 <= db2 && 0.0 <= sensitivity
    ensures Normalise(db1, sensitivity) <= Normalise(db2, sensitivity)
  {
    var a, b := Max(0.0, (db1 + 100.0) / 100.0), Max(0.0, (db2 + 100.0) / 100.0);
    assert a <= b;
    MulNonNeg(b - a, sensitivity);
    assert Mul(b - a, sensitivity) == b * sensitivity - a * sensitivity;
  }

  /** Above -100 dB equal steps in decibels give equal steps in the output. */
  lemma NormaliseLinear(db1: real, db2: real, sensitivity: real)
    requires -100.0 <= db1 && -100.0 <= db2
    ensures Normalise(db2, sensitivity) - Normalise(db1, sensitivity) == (db2 - db1) / 100.0 * sensitivity
  {
  }

  /**
    One frame. Without an analyser nothing is produced. Otherwise every bin of
    the spectrum is normalised into the buffer at its index; a write past the
    buffer's end is dropped, as a typed array drops it, and entries past the
    spectrum keep their value.
   */
  method Frame(fftSize: Option<nat>, spectrum: seq<real>, buffer: seq<real>, sensitivity: real)
      returns (out: Option<seq<real>>)
    requires fftSize.Some? ==> |spectrum| == FrequencyBinCount(fftSize.value)
    ensures out.None? <==> fftSize.None?
    ensures out.Some? ==> |out.value| == |buffer|
    ensures out.Some? ==> forall i :: 0 <= i < |buffer| && i < |spectrum| ==>
      out.value[i] == Normalise(spectrum[i], sensitivity)
    ensures out.Some? ==> forall i :: |spectrum| <= i < |buffer| ==> out.value[i] == buffer[i]
  {
    if fftSize.None? {
      return None;
    }
    var buf := buffer;
    var i := 0;
    while i < |spectrum|
      invariant 0 <= i <= |spectrum|
      invariant |buf| == |buffer|
      invariant forall j :: 0 <= j < |buf| && j < i ==> buf[j] == Normalise(spectrum[j], sensitivity)
      invariant forall j :: i <= j < |buf| ==> buf[j] == buffer[j]
    {
      if i < |buf| {
        buf := buf[i := Normalise(spectrum[i], sensitivity)];
      }
      i := i + 1;
    }
    return Some(buf);
  }

  /**
    With the configured FFT size the spectrum exactly fills the buffer: every
    entry is rewritten and every entry is non-negative for a non-negative
    sensitivity.
   */
  lemma ConfiguredSizeFillsBuffer(spectrum: seq<real>, buffer: seq<real>, out: seq<real>, sensitivity: real)
    requires |spectrum| == FrequencyBinCount(FftSize) && |buffer| == BufferLength
    requires |out| == |buffer|
    requires forall i :: 0 <= i < |buffer| && i < |spectrum| ==> out[i] == Normalise(spectrum[i], sensitivity)
    requires 0.0 <= sensitivity
    ensures |spectrum| == |out|
    ensures forall i :: 0 <= i < |out| ==> out[i] == Normalise(spectrum[i], sensitivity) && 0.0 <= out[i]
  {
  }
}

=== FILE: drag_effect.dfy ===
/**
  The drag tracker of `DragEffect.tsx`: a mouse-down starts a drag at the
  picked point with intensity 1, a mouse-up ends it with intensity 0, and
  every frame of a drag follows the pointer, smooths its velocity and sets
  the intensity from the smoothed speed.
 */
module DragEffect {
  import opened Maths
  import Picking

  /** The drag state the other layers read. */
  datatype DragState = DragState(
    isDragging: bool,
    startPosition: Vec3,
    currentPosition: Vec3,
    velocity: Vec3,
    intensity: real)

  /** The drag state together with the tracker's two private registers. */
  datatype Tracker = Tracker(drag: DragState, lastPosition: Vec3, velocitySmooth: Vec3)

  const Initial := Tracker(DragState(false, Origin, Origin, Origin, 0.0), Origin, Origin)

  /** Intensity in [0, 1], and exactly 0 whenever no drag is in progress. */
  predicate Valid(t: Tracker) {
    && 0.0 <= t.drag.intensity <= 1.0
    && (!t.drag.isDragging ==> t.drag.intensity == 0.0)
  }

  /** Mouse-down: start a drag at the picked point with full intensity. */
  function MouseDown(m: Libm, t: Tracker, hit: Option<Vec3>, cam: Vec3, dir: Vec3): (t': Tracker)
    requires Lawful(m)
    requires hit.None? ==> dir.z != 0.0
    ensures t'.drag.isDragging && t'.drag.intensity == 1.0
    ensures t'.drag.startPosition == Picking.PickPoint(m, hit, cam, dir)
    ensures t'.drag.currentPosition == t'.drag.startPosition == t'.lastPosition
    ensures t'.drag.velocity == t.drag.velocity && t'.velocitySmooth == t.velocitySmooth
    ensures Valid(t')
  {
    var p := Picking.PickPoint(m, hit, cam, dir);
    Tracker(t.drag.(isDragging := true, startPosition := p, currentPosition := p, intensity := 1.0),
            p, t.velocitySmooth)
  }

  /** Mouse-up: end the drag; the intensity drops to 0 at once. */
  function MouseUp(t: Tracker): (t': Tracker)
    ensures !t'.drag.isDragging && t'.drag.intensity == 0.0
    ensures t'.drag.startPosition == t.drag.startPosition
    ensures t'.drag.currentPosition == t.drag.currentPosition && t'.drag.velocity == t.drag.velocity
    ensures t'.lastPosition == t.lastPosition && t'.velocitySmooth == t.velocitySmooth
    ensures Valid(t')
  {
    t.(drag := t.drag.(isDragging := false, intensity := 0.0))
  }

  /** `Math.min(speed * 0.05, 1)`: full intensity from a smoothed speed of 20. */
  function IntensityOf(speed: real): (i: real)
    ensures 0.0 <= speed ==> 0.0 <= i <= 1.0
    ensures i == 1.0 <==> 20.0 <= speed
    ensures speed < 20.0 ==> i == speed * 0.05
  {
    Min(speed * 0.05, 1.0)
  }

  /**
    One frame. While dragging: the instantaneous velocity is the pointer's
    displacement over the frame time, the smoothed velocity moves 30% of the way
    towards it, and the drag follows the pointer. Otherwise a positive intensity
    fades by `2 * delta`, not below 0.
   */
  function Tick(m: Libm, t: Tracker, mouse: Vec3, delta: real): (t': Tracker)
    requires Lawful(m)
    requires t.drag.isDragging ==> delta != 0.0
    ensures t'.drag.isDragging == t.drag.isDragging
    ensures t'.drag.startPosition == t.drag.startPosition
    ensures Valid(t) ==> Valid(t')
    ensures t.drag.isDragging ==> var instant := Scale(Sub(mouse, t.lastPosition), 1.0 / delta);
      && Sub(instant, t'.velocitySmooth) == Scale(Sub(instant, t.velocitySmooth), 0.7)
      && t'.drag.velocity == t'.velocitySmooth
      && t'.drag.currentPosition == mouse && t'.lastPosition == mouse
      && t'.drag.intensity == IntensityOf(Length(m, t'.velocitySmooth))
      && 0.0 <= t'.drag.intensity <= 1.0
    ensures !t.drag.isDragging ==> t'.lastPosition == t.lastPosition && t'.velocitySmooth == t.velocitySmooth
    ensures !t.drag.isDragging ==> t'.drag.intensity == if t.drag.intensity > 0.0 then Max(0.0, t.drag.intensity - delta * 2.0) else t.drag.intensity
  {
    if t.drag.isDragging then
      var instant := Scale(Sub(mouse, t.lastPosition), 1.0 / delta);
      var smooth := VLerp(t.velocitySmooth, instant, 0.3);
      NormSqNonNeg(smooth);
      Tracker(t.drag.(currentPosition := mouse, velocity := smooth,
                      intensity := IntensityOf(Length(m, smooth))),
              mouse, smooth)
    else if t.drag.intensity > 0.0 then
      t.(drag := t.drag.(intensity := Max(0.0, t.drag.intensity - delta * 2.0)))
    else
      t
  }

  /**
    Because a mouse-up zeroes the intensity, the fade branch never changes a
    valid state: between drags a frame leaves the tracker as it is.
   */
  lemma IdleTickIsIdentity(m: Libm, t: Tracker, mouse: Vec3, delta: real)
    requires Lawful(m)
    requires Valid(t) && !t.drag.isDragging
    ensures Tick(m, t, mouse, delta) == t
  {
  }

  /** A pointer held still makes the smoothed velocity decay by 30% per frame. */
  lemma StillPointerDecays(m: Libm, t: Tracker, delta: real)
    requires Lawful(m)
    requires t.drag.isDragging && delta != 0.0
    ensures Tick(m, t, t.lastPosition, delta).velocitySmooth == Scale(t.velocitySmooth, 0.7)
  {
    var instant := Scale(Sub(t.lastPosition, t.lastPosition), 1.0 / delta);
    assert instant == Origin;
  }

  datatype Event =
    | Down(hit: Option<Vec3>, cam: Vec3, dir: Vec3)
    | Up
    | Frame(mouse: Vec3, delta: real)

  /** Whether the tracker can take the event as the source does. */
  predicate Admissible(t: Tracker, e: Event) {
    match e
    case Down(hit, _, dir) => hit.None? ==> dir.z != 0.0
    case Up => true
    case Frame(_, delta) => t.drag.isDragging ==> delta != 0.0
  }

  function Apply(m: Libm, t: Tracker, e: Event): (t': Tracker)
    requires Lawful(m)
    requires Admissible(t, e)
  {
    match e
    case Down(hit, cam, dir) => MouseDown(m, t, hit, cam, dir)
    case Up => MouseUp(t)
    case Frame(mouse, delta) => Tick(m, t, mouse, delta)
  }

  /** Events in order; the run stops at the first event the source cannot take. */
  function Run(m: Libm, t: Tracker, es: seq<Event>): (t': Tracker)
    requires Lawful(m)
    decreases |es|
  {
    if |es| == 0 || !Admissible(t, es[0]) then t else Run(m, Apply(m, t, es[0]), es[1..])
  }

  /** Every run of events from a valid tracker ends in a valid tracker. */
  lemma {:induction false} RunKeepsValid(m: Libm, t: Tracker, es: seq<Event>)
    requires Lawful(m)
    requires Valid(t)
    ensures Valid(Run(m, t, es))
    decreases |es|
  {
    if |es| != 0 && Admissible(t, es[0]) {
      RunKeepsValid(m, Apply(m, t, es[0]), es[1..]);
    }
  }

  /** The start position of a drag changes only on a mouse-down. */
  lemma {:induction false} StartOnlyMovesOnDown(m: Libm, t: Tracker, es: seq<Event>)
    requires Lawful(m)
    requires forall k :: 0 <= k < |es| ==> !es[k].Down?
    ensures Run(m, t, es).drag.startPosition == t.drag.startPosition
    decreases |es|
  {
    if |es| != 0 && Admissible(t, es[0]) {
      StartOnlyMovesOnDown(m, Apply(m, t, es[0]), es[1..]);
    }
  }
}

=== FILE: drag_particles.dfy ===
/**
  The drag particle emitter of `DragParticles.tsx`: while a drag is in
  progress it emits, at most every 0.01 s, a batch of 5 to 15 particles
  (more for a stronger drag) at the drag point, thrown against the drag
  direction; the pool keeps the newest 500, and every frame each particle
  moves, slows by 2%, loses `0.8 * delta` of life and shrinks.
 */
module DragParticles {
  import opened Maths
  import Pool
  import opened Sprites
  import DragEffect

  const MaxParticles: nat := 500
  const EmitInterval: real := 0.01

  datatype State = State(particles: seq<Sprite>, emitTimer: real)

  const Initial := State([], 0.0)

  /** `Math.floor(5 + intensity * 10)`: 5 to 15 particles for an intensity in [0, 1]. */
  function EmitCount(intensity: real): (n: int)
    ensures 0.0 <= intensity <= 1.0 ==> 5 <= n <= 15
    ensures 0.0 <= intensity ==> 5 <= n
  {
    (5.0 + intensity * 10.0).Floor
  }

  /** Throw speed `0.5 r + 0.1`. */
  function ThrowSpeed(draw: real): (s: real)
    ensures 0.0 <= draw < 1.0 ==> 0.1 <= s < 0.6
  {
    draw * 0.5 + 0.1
  }

  /**
    Particle `i` of a batch: six draws in order (angle, speed, elevation, size,
    hue, lightness). Its velocity is a random direction at the drawn speed
    minus a tenth of the drag velocity.
   */
  function Launch(m: Libm, rng: Rng, drag: DragEffect.DragState, i: nat): (p: Sprite)
    requires Lawful(m)
    ensures p.position == drag.currentPosition && p.life == 1.0 && InUnit(p.color)
    ensures NormSq(Add(p.velocity, Scale(drag.velocity, 0.1))) == Sq(ThrowSpeed(rng(6 * i + 1)))
    ensures 0.0 <= rng(6 * i + 3) < 1.0 ==> 0.2 <= p.size < 1.0
  {
    var base := 6 * i;
    var angle := rng(base) * Pi * 2.0;
    var speed := ThrowSpeed(rng(base + 1));
    var elevation := (rng(base + 2) - 0.5) * Pi * 0.3;
    var horizontal := m.cos(elevation) * speed;
    var d := Vec3(m.cos(angle) * m.cos(elevation) * speed,
                  m.sin(elevation) * speed,
                  m.sin(angle) * m.cos(elevation) * speed);
    var v := Sub(d, Scale(drag.velocity, 0.1));
    assert Add(v, Scale(drag.velocity, 0.1)) == d;
    assert d.x == m.cos(angle) * horizontal && d.z == m.sin(angle) * horizontal;
    PolarRadius(m, angle, horizontal);
    PolarRadius(m, elevation, speed);
    var color := m.hsl(rng(base + 4), 0.9, 0.5 + rng(base + 5) * 0.3);
    HslInUnit(m, rng(base + 4), 0.9, 0.5 + rng(base + 5) * 0.3);
    Sprite(drag.currentPosition, v, rng(base + 3) * 0.8 + 0.2, 1.0, color)
  }

  /** The batch one emission adds; a negative count emits nothing. */
  function Emit(m: Libm, rng: Rng, drag: DragEffect.DragState): (batch: seq<Sprite>)
    requires Lawful(m)
    ensures 0.0 <= drag.intensity <= 1.0 ==> 5 <= |batch| <= 15
    ensures forall i :: 0 <= i < |batch| ==> batch[i] == Launch(m, rng, drag, i)
    ensures forall i :: 0 <= i < |batch| ==> batch[i].life == 1.0
  {
    var n := EmitCount(drag.intensity);
    var count: nat := if n < 0 then 0 else n;
    seq(count, i requires 0 <= i < count => Launch(m, rng, drag, i))
  }

  /** One frame of a particle: move, slow by 2%, lose `0.8 * delta` of life, shrink. */
  function Age(p: Sprite, delta: real): (q: Sprite)
    ensures q.position == Add(p.position, Scale(p.velocity, delta * 60.0))
    ensures q.velocity == Scale(p.velocity, 0.98)
    ensures p.life - q.life == delta * 0.8
    ensures q.size == p.size * (1.0 - delta * 0.3)
    ensures q.color == p.color
  {
    Sprite(Add(p.position, Scale(p.velocity, delta * 60.0)), Scale(p.velocity, 0.98),
           p.size * (1.0 - delta * 0.3), p.life - delta * 0.8, p.color)
  }

  predicate Alive(p: Sprite) {
    p.life > 0.0
  }

  function AgeAll(ps: seq<Sprite>, delta: real): (out: seq<Sprite>)
    ensures |out| == |ps|
    ensures forall i :: 0 <= i < |ps| ==> out[i] == Age(ps[i], delta)
  {
    Pool.Map(ps, (p: Sprite) => Age(p, delta))
  }

  /** The per-frame pool update: age every particle, then drop the dead ones. */
  function UpdatePool(ps: seq<Sprite>, delta: real): (out: seq<Sprite>)
    ensures |out| <= |ps|
    ensures forall q :: q in out ==> Alive(q) && exists p :: p in ps && q == Age(p, delta)
    ensures forall i :: 0 <= i < |ps| && Alive(Age(ps[i], delta)) ==> Age(ps[i], delta) in out
  {
    var aged := AgeAll(ps, delta);
    Pool.FilterCounts(aged, Alive);
    assert forall i :: 0 <= i < |ps| && Alive(aged[i]) ==> multiset(aged)[aged[i]] > 0;
    forall q | q in Pool.Filter(aged, Alive)
      ensures exists p :: p in ps && q == Age(p, delta)
    {
      var i :| 0 <= i < |aged| && aged[i] == q;
      assert ps[i] in ps;
    }
    Pool.Filter(aged, Alive)
  }

  /** Whether this frame emits: a drag is in progress and the timer is due. */
  predicate Emits(s: State, drag: DragEffect.DragState, delta: real) {
    drag.isDragging && s.emitTimer + delta > EmitInterval
  }

  /**
    One frame in source order: advance the timer, maybe append a batch, cap
    the pool at 500 and reset the timer, then age the pool.
   */
  function Frame(m: Libm, s: State, drag: DragEffect.DragState, delta: real, rng: Rng): (s': State)
    requires Lawful(m)
    ensures Emits(s, drag, delta) ==> s'.emitTimer == 0.0
    ensures !Emits(s, drag, delta) ==> s'.emitTimer == s.emitTimer + delta && |s'.particles| <= |s.particles|
    ensures !drag.isDragging ==> |s'.particles| <= |s.particles|
    ensures |s.particles| <= MaxParticles ==> |s'.particles| <= MaxParticles
    ensures Emits(s, drag, delta) ==>
      s'.particles == UpdatePool(Pool.TakeLast(s.particles + Emit(m, rng, drag), MaxParticles), delta)
    ensures !Emits(s, drag, delta) ==> s'.particles == UpdatePool(s.particles, delta)
  {
    if Emits(s, drag, delta) then
      State(UpdatePool(Pool.TakeLast(s.particles + Emit(m, rng, drag), MaxParticles), delta), 0.0)
    else
      State(UpdatePool(s.particles, delta), s.emitTimer + delta)
  }

  predicate AllLive(ps: seq<Sprite>) {
    forall i :: 0 <= i < |ps| ==> 0.0 < ps[i].life <= 1.0
  }

  /** Frames keep every particle's life in (0, 1]. */
  lemma FrameKeepsLive(m: Libm, s: State, drag: DragEffect.DragState, delta: real, rng: Rng)
    requires Lawful(m)
    requires AllLive(s.particles) && 0.0 <= delta
    ensures AllLive(Frame(m, s, drag, delta, rng).particles)
  {
    var pre := if Emits(s, drag, delta)
               then Pool.TakeLast(s.particles + Emit(m, rng, drag), MaxParticles)
               else s.particles;
    assert forall p :: p in pre ==> p.life <= 1.0 by {
      if Emits(s, drag, delta) {
        var all := s.particles + Emit(m, rng, drag);
        assert pre == all[|all| - |pre|..];
        assert forall i :: 0 <= i < |all| ==> all[i].life <= 1.0;
      }
    }
    var out := Frame(m, s, drag, delta, rng).particles;
    assert out == UpdatePool(pre, delta);
    forall k | 0 <= k < |out|
      ensures 0.0 < out[k].life <= 1.0
    {
      assert out[k] in out;
      var p :| p in pre && out[k] == Age(p, delta);
    }
  }

  /** The update keeps the pool's order: it distributes over concatenation. */
  lemma UpdateKeepsOrder(a: seq<Sprite>, b: seq<Sprite>, delta: real)
    ensures UpdatePool(a + b, delta) == UpdatePool(a, delta) + UpdatePool(b, delta)
  {
    assert AgeAll(a + b, delta) == AgeAll(a, delta) + AgeAll(b, delta);
    Pool.FilterAppend(AgeAll(a, delta), AgeAll(b, delta), Alive);
  }

  /** Ageing then filtering distributes over appending a batch that all survives. */
  lemma UpdateAppendSurvivors(a: seq<Sprite>, batch: seq<Sprite>, delta: real)
    requires forall i :: 0 <= i < |batch| ==> Alive(Age(batch[i], delta))
    ensures UpdatePool(a + batch, delta) == UpdatePool(a, delta) + AgeAll(batch, delta)
  {
    UpdateKeepsOrder(a, batch, delta);
    Pool.FilterKeepsAll(AgeAll(batch, delta), Alive);
  }

  /**
    A frame shorter than 1.25 s that emits during a drag of intensity in
    [0, 1] ends the pool with the whole new batch, aged by that frame.
   */
  lemma EmittedBatchKept(m: Libm, s: State, drag: DragEffect.DragState, delta: real, rng: Rng)
    requires Lawful(m)
    requires Emits(s, drag, delta) && delta < 1.25
    requires 0.0 <= drag.intensity <= 1.0
    ensures var ps := Frame(m, s, drag, delta, rng).particles;
      var batch := Emit(m, rng, drag);
      |batch| <= |ps| && ps[|ps| - |batch|..] == AgeAll(batch, delta)
  {
    var batch := Emit(m, rng, drag);
    var all := s.particles + batch;
    var capped := Pool.TakeLast(all, MaxParticles);
    var k := |all| - |capped|;
    assert capped == all[k..];
    assert capped == s.particles[k..] + batch;
    UpdateAppendSurvivors(s.particles[k..], batch, delta);
  }

  /** `n` frames of constant length. */
  function Drift(p: Sprite, delta: real, n: nat): Sprite
    decreases n
  {
    if n == 0 then p else Age(Drift(p, delta, n - 1), delta)
  }

  /**
    After `n` frames the velocity has decayed geometrically to `0.98^n` of
    its launch value and the life has fallen linearly.
   */
  lemma {:induction false} DriftDecays(p: Sprite, delta: real, n: nat)
    ensures Drift(p, delta, n).velocity == Scale(p.velocity, Pow(0.98, n))
    ensures Drift(p, delta, n).life == p.life - n as real * (delta * 0.8)
    decreases n
  {
    if n != 0 {
      DriftDecays(p, delta, n - 1);
      var k := Pow(0.98, n - 1);
      assert Pow(0.98, n) == 0.98 * k;
      assert Scale(Scale(p.velocity, k), 0.98) == Scale(p.velocity, 0.98 * k);
      assert n as real * (delta * 0.8) == (n - 1) as real * (delta * 0.8) + delta * 0.8;
    }
  }

  /** The render step: nothing for an empty pool, otherwise the sprite buffers. */
  method Render(ps: seq<Sprite>) returns (b: Option<Buffers>)
    ensures b.None? <==> |ps| == 0
    ensures b.Some? ==> Drawn(ps, b.value.positions, b.value.colors, b.value.sizes)
  {
    b := Sprites.Render(ps);
  }
}

=== FILE: geometry_generator.dfy ===
/**
  The click-spawned shapes of `GeometryGenerator.tsx`: a click adds a shape
  of one of six kinds at the picked point; every frame with audio, each
  shape's uniform scale is set from its audio bin, it spins faster with
  louder audio, and a shape within 20 of the pointer is drawn 1% of the
  influence towards it and glows brighter.
 */
module GeometryGenerator {
  import opened Maths
  import Picking

  datatype Kind = Icosahedron | Octahedron | Tetrahedron | Torus | Sphere | Box

  /** The kinds in the order the random pick indexes them. */
  const Kinds: seq<Kind> := [Icosahedron, Octahedron, Tetrahedron, Torus, Sphere, Box]

  const AttractRadius: real := 20.0

  datatype Shape = Shape(
    kind: Kind,
    position: Vec3,
    scale: real,
    rotationX: real,
    rotationY: real,
    emissive: real,
    color: Rgb)

  /** `Math.floor(r * 6)`: the pick always lands on one of the six kinds. */
  function KindIndex(draw: real): (k: int)
    requires 0.0 <= draw < 1.0
    ensures 0 <= k < |Kinds|
  {
    ScaledIndex(draw, |Kinds|)
  }

  /**
    A new shape at the picked point: three draws in order (kind, scale, hue);
    the scale lies in [0.5, 2.5) and the glow starts at 0.2.
   */
  function CreateShape(m: Libm, rng: Rng, position: Vec3): (s: Shape)
    requires Lawful(m)
    requires 0.0 <= rng(0) < 1.0
    ensures s.kind == Kinds[KindIndex(rng(0))]
    ensures s.position == position && s.emissive == 0.2
    ensures s.rotationX == 0.0 && s.rotationY == 0.0
    ensures 0.0 <= rng(1) < 1.0 ==> 0.5 <= s.scale < 2.5
    ensures InUnit(s.color)
  {
    HslInUnit(m, rng(2), 0.7, 0.5);
    Shape(Kinds[KindIndex(rng(0))], position, 0.5 + rng(1) * 2.0, 0.0, 0.0, 0.2, m.hsl(rng(2), 0.7, 0.5))
  }

  /** The click handler: pick the point and append a shape there. */
  function OnClick(m: Libm, shapes: seq<Shape>, hit: Option<Vec3>, cam: Vec3, dir: Vec3, rng: Rng): (out: seq<Shape>)
    requires Lawful(m)
    requires hit.None? ==> dir.z != 0.0
    requires 0.0 <= rng(0) < 1.0
    ensures |out| == |shapes| + 1 && out[..|shapes|] == shapes
    ensures out[|shapes|].position == Picking.PickPoint(m, hit, cam, dir)
    ensures out[|shapes|] == CreateShape(m, rng, Picking.PickPoint(m, hit, cam, dir))
  {
    shapes + [CreateShape(m, rng, Picking.PickPoint(m, hit, cam, dir))]
  }

  /** The pull towards the pointer: `influence / 100` of the way there. */
  function Attract(position: Vec3, mouse: Vec3, influence: real): (p: Vec3)
    ensures Sub(mouse, p) == Scale(Sub(mouse, position), 1.0 - influence * 0.01)
  {
    Add(position, Scale(Sub(mouse, position), influence * 0.01))
  }

  /**
    The attraction shrinks the distance to the pointer by exactly the factor
    `1 - influence / 100`, so for an influence in [0, 1] it never overshoots.
   */
  lemma AttractShrinks(m: Libm, position: Vec3, mouse: Vec3, influence: real)
    requires Lawful(m)
    requires 0.0 <= influence <= 1.0
    ensures Dist(m, Attract(position, mouse, influence), mouse) ==
      (1.0 - influence * 0.01) * Dist(m, position, mouse)
    ensures Dist(m, Attract(position, mouse, influence), mouse) <= Dist(m, position, mouse)
  {
    var k := 1.0 - influence * 0.01;
    var d := Dist(m, position, mouse);
    var p := Attract(position, mouse, influence);
    assert Sub(p, mouse) == Scale(Sub(position, mouse), k);
    NormSqScale(Sub(position, mouse), k);
    assert NormSq(Sub(p, mouse)) == Sq(d) * Sq(k);
    assert Sq(d) * Sq(k) == Sq(k * d);
    MulNonNeg(k, d);
    SqrtOfSquare(m, k * d);
    MulLe(k, 1.0, d);
  }


  /** The influence `1 - d / 20` of a pointer at distance `d < 20`. */
  function Influence(d: real): (inf: real)
    requires 0.0 <= d < AttractRadius
    ensures 0.0 < inf <= 1.0
    ensures 0.2 < 0.2 + inf * 0.8 <= 1.0
  {
    var inf := Falloff(d, AttractRadius);
    assert inf + d / AttractRadius == 1.0;
    inf
  }

  /**
    One frame of shape `index` of `count` with audio `audio`: scale and spin
    from the audio value, then the pointer attraction and glow within 20.
   */
  function UpdateShape(m: Libm, s: Shape, index: nat, count: nat, audio: seq<real>, mouse: Vec3): (s': Shape)
    requires Lawful(m)
    requires index < count
    ensures var a := SampleOrZero(audio, BinIndex(index, count, |audio|));
      && s'.scale == 1.0 + a * 0.5
      && s'.rotationX - s.rotationX == 0.01 * (1.0 + a)
      && s'.rotationY - s.rotationY == 0.01 * (1.0 + a)
    ensures s'.kind == s.kind && s'.color == s.color
    ensures Dist(m, s.position, mouse) < AttractRadius ==>
      && s'.position == Attract(s.position, mouse, Influence(Dist(m, s.position, mouse)))
      && 0.2 < s'.emissive <= 1.0
    ensures AttractRadius <= Dist(m, s.position, mouse) ==>
      s'.position == s.position && s'.emissive == s.emissive
  {
    var a := SampleOrZero(audio, BinIndex(index, count, |audio|));
    var spun := s.(scale := 1.0 + a * 0.5,
                   rotationX := s.rotationX + 0.01 * (1.0 + a),
                   rotationY := s.rotationY + 0.01 * (1.0 + a));
    var d := Dist(m, s.position, mouse);
    if d < AttractRadius then
      var inf := Influence(d);
      spun.(position := Attract(s.position, mouse, inf), emissive := 0.2 + inf * 0.8)
    else
      spun
  }

  /** One frame of all shapes; nothing changes while there is no audio buffer. */
  function Frame(m: Libm, shapes: seq<Shape>, audio: Option<seq<real>>, mouse: Vec3): (out: seq<Shape>)
    requires Lawful(m)
    ensures audio.None? ==> out == shapes
    ensures |out| == |shapes|
    ensures audio.Some? ==> forall i :: 0 <= i < |shapes| ==>
      out[i] == UpdateShape(m, shapes[i], i, |shapes|, audio.value, mouse)
  {
    match audio
    case None => shapes
    case Some(data) =>
      seq(|shapes|, i requires 0 <= i < |shapes| => UpdateShape(m, shapes[i], i, |shapes|, data, mouse))
  }

  /** With a non-empty buffer every shape reads an in-range bin. */
  lemma BinInRange(index: nat, count: nat, audio: seq<real>)
    requires index < count && 0 < |audio|
    ensures 0 <= BinIndex(index, count, |audio|) < |audio|
    ensures SampleOrZero(audio, BinIndex(index, count, |audio|)) == audio[BinIndex(index, count, |audio|)]
  {
  }

  /** An empty buffer is not skipped: every shape then reads 0 and is reset to scale 1. */
  lemma EmptyAudioResetsScale(m: Libm, shapes: seq<Shape>, mouse: Vec3)
    requires Lawful(m)
    ensures forall i :: 0 <= i < |shapes| ==> Frame(m, shapes, Some([]), mouse)[i].scale == 1.0
  {
  }
}

=== FILE: glow_layer.dfy ===
/**
  The glow layers of `GlowLayer.tsx`: a shell of soft points between radius
  80 and 120, coloured (0.8, 0.8, 1.0), whose sizes are redrawn every frame
  and enlarged up to five-fold near a smoothed pointer within radius 40.
 */
module GlowLayer {
  import opened Maths

  const SpotlightRadius: real := 40.0

  /** The buffers of a layer as one render draws them: one position, colour and size per point. */
  datatype Layer = Layer(positions: seq<Vec3>, colors: seq<Rgb>, sizes: seq<real>)

  /** The shell radius `80 + 40 r`. */
  function ShellRadius(draw: real): (r: real)
    ensures 0.0 <= draw < 1.0 ==> 80.0 <= r < 120.0
  {
    80.0 + draw * 40.0
  }

  /**
    A point on the sphere of the drawn radius, at polar angle `acos(2 r - 1)`
    and azimuth `2 PI r`.
   */
  function ShellPoint(m: Libm, radius: real, theta: real, phi: real): (p: Vec3)
    requires Lawful(m)
    ensures NormSq(p) == Sq(radius)
  {
    var p := Vec3(radius * m.sin(phi) * m.cos(theta),
                  radius * m.sin(phi) * m.sin(theta),
                  radius * m.cos(phi));
    var ring := radius * m.sin(phi);
    assert p.x == m.cos(theta) * ring && p.y == m.sin(theta) * ring;
    PolarRadius(m, theta, ring);
    assert p.z == m.cos(phi) * radius && ring == m.sin(phi) * radius;
    PolarRadius(m, phi, radius);
    p
  }

  /** `(2 r + 1) * scale`: the base size of a glow point. */
  function BaseSize(draw: real, scale: real): real {
    (draw * 2.0 + 1.0) * scale
  }

  /** A unit draw makes the base size one to three times the scale. */
  lemma BaseSizeBounds(draw: real, scale: real)
    requires 0.0 <= draw < 1.0 && 0.0 <= scale
    ensures scale <= BaseSize(draw, scale) <= 3.0 * scale
    ensures 0.0 < scale ==> BaseSize(draw, scale) < 3.0 * scale
  {
    MulLe(draw * 2.0 + 1.0, 3.0, scale);
    MulLe(1.0, draw * 2.0 + 1.0, scale);
    if 0.0 < scale {
      MulPos(3.0 - (draw * 2.0 + 1.0), scale);
    }
  }


  /** The shell points of the layer, three draws each (radius, azimuth, polar draw). */
  function ShellPoints(m: Libm, rng: Rng, n: nat): (ps: seq<Vec3>)
    requires Lawful(m)
    ensures |ps| == n
    ensures forall i :: 0 <= i < n ==> NormSq(ps[i]) == Sq(ShellRadius(rng(4 * i)))
  {
    seq(n, i requires 0 <= i < n =>
          ShellPoint(m, ShellRadius(rng(4 * i)), rng(4 * i + 1) * Pi * 2.0,
                     m.acos(rng(4 * i + 2) * 2.0 - 1.0)))
  }

  /** The base sizes of the layer, from every fourth draw. */
  function BaseSizes(rng: Rng, n: nat, scale: real): (ss: seq<real>)
    ensures |ss| == n
    ensures forall i :: 0 <= i < n ==> ss[i] == BaseSize(rng(4 * i + 3), scale)
    ensures UnitDraws(rng) && 0.0 <= scale ==> forall i :: 0 <= i < n ==> scale <= ss[i] <= 3.0 * scale
  {
    var ss := seq(n, i requires 0 <= i < n => BaseSize(rng(4 * i + 3), scale));
    assert UnitDraws(rng) && 0.0 <= scale ==> forall i :: 0 <= i < n ==> scale <= ss[i] <= 3.0 * scale by {
      if UnitDraws(rng) && 0.0 <= scale {
        forall i | 0 <= i < n
          ensures scale <= ss[i] <= 3.0 * scale
        {
          BaseSizeBounds(rng(4 * i + 3), scale);
        }
      }
    }
    ss
  }

  /**
    The layer as one render of the component builds it: four draws per
    point in order (radius, azimuth, polar draw, size). The component body
    runs this on every render, outside any memo, so each render draws a new
    layer; a negative count builds nothing.
   */
  function Build(m: Libm, rng: Rng, count: int, scale: real): (l: Layer)
    requires Lawful(m)
    ensures |l.positions| == |l.colors| == |l.sizes| == if count < 0 then 0 else count
    ensures forall i :: 0 <= i < |l.positions| ==> NormSq(l.positions[i]) == Sq(ShellRadius(rng(4 * i)))
    ensures forall i :: 0 <= i < |l.colors| ==> l.colors[i] == Rgb(0.8, 0.8, 1.0)
    ensures forall i :: 0 <= i < |l.sizes| ==> l.sizes[i] == BaseSize(rng(4 * i + 3), scale)
    ensures UnitDraws(rng) && 0.0 <= scale ==> forall i :: 0 <= i < |l.sizes| ==> scale <= l.sizes[i] <= 3.0 * scale
  {
    var n: nat := if count < 0 then 0 else count;
    Layer(ShellPoints(m, rng, n), seq(n, i requires 0 <= i < n => Rgb(0.8, 0.8, 1.0)), BaseSizes(rng, n, scale))
  }

  /**
    The frame size of a point: a freshly drawn base size times
    `0.5 + 2 * falloff`, so between half and two and a half times the base.
   */
  function GlowSize(draw: real, scale: real, falloff: real): real {
    BaseSize(draw, scale) * (0.5 + falloff * 2.0)
  }

  /**
    For a unit draw, a non-negative scale and a falloff in [0, 1], a glow
    point is between half and seven and a half times the scale; far from
    the pointer it is half its base size.
   */
  lemma GlowSizeBounds(draw: real, scale: real, falloff: real)
    requires 0.0 <= draw < 1.0 && 0.0 <= scale && 0.0 <= falloff <= 1.0
    ensures 0.5 * scale <= GlowSize(draw, scale, falloff) <= 7.5 * scale
    ensures 0.0 < scale ==> GlowSize(draw, scale, falloff) < 7.5 * scale
    ensures falloff == 0.0 ==> GlowSize(draw, scale, falloff) == BaseSize(draw, scale) * 0.5
  {
    var b := BaseSize(draw, scale);
    var k := 0.5 + falloff * 2.0;
    BaseSizeBounds(draw, scale);
    MulLe(0.5, k, b);
    MulLe(k, 2.5, b);
    assert GlowSize(draw, scale, falloff) == k * b;
    assert 0.5 * b >= 0.5 * scale;
    calc {
      GlowSize(draw, scale, falloff);
      k * b;
    <= 2.5 * b;
    <= 7.5 * scale;
    }
    if 0.0 < scale {
      assert GlowSize(draw, scale, falloff) <= 2.5 * b < 7.5 * scale;
    }
  }

  /** For the same draw, a point nearer the pointer glows at least as large. */
  lemma NearerGlowsLarger(draw: real, scale: real, d1: real, d2: real)
    requires 0.0 <= draw < 1.0 && 0.0 <= scale
    requires d1 <= d2
    ensures GlowSize(draw, scale, Falloff(d2, SpotlightRadius)) <= GlowSize(draw, scale, Falloff(d1, SpotlightRadius))
  {
    FalloffAntitone(d1, d2, SpotlightRadius);
    var f1, f2 := Falloff(d1, SpotlightRadius), Falloff(d2, SpotlightRadius);
    MulLe(0.5 + f2 * 2.0, 0.5 + f1 * 2.0, BaseSize(draw, scale));
  }

  /** The size of point `i` in a frame, against the smoothed pointer. */
  function SizeAt(m: Libm, l: Layer, smooth: Vec3, draw: real, scale: real, i: nat): (s: real)
    requires Lawful(m)
    requires i < |l.positions|
  {
    GlowSize(draw, scale, Falloff(Dist(m, l.positions[i], smooth), SpotlightRadius))
  }

  /**
    One frame: the smoothed pointer moves 10% of the way to the pointer, then
    every size is recomputed from a fresh draw and the distance to it.
    The frame callback itself leaves the positions and colours of the
    layer it is given as they are.
   */
  method Frame(m: Libm, l: Layer, smooth: Vec3, mouse: Vec3, rng: Rng, scale: real)
      returns (l': Layer, smooth': Vec3)
    requires Lawful(m)
    requires |l.sizes| == |l.positions|
    ensures Sub(mouse, smooth') == Scale(Sub(mouse, smooth), 0.9)
    ensures l'.positions == l.positions && l'.colors == l.colors
    ensures |l'.sizes| == |l.sizes|
    ensures forall i :: 0 <= i < |l'.sizes| ==> l'.sizes[i] == SizeAt(m, l, smooth', rng(i), scale, i)
    ensures UnitDraws(rng) && 0.0 <= scale ==>
      forall i :: 0 <= i < |l'.sizes| ==> 0.5 * scale <= l'.sizes[i] <= 7.5 * scale
    ensures UnitDraws(rng) && 0.0 < scale ==> forall i :: 0 <= i < |l'.sizes| ==> l'.sizes[i] < 7.5 * scale
  {
    smooth' := VLerp(smooth, mouse, 0.1);
    var sizes: seq<real> := [];
    var i := 0;
    while i < |l.positions|
      invariant 0 <= i <= |l.positions|
      invariant |sizes| == i
      invariant forall j :: 0 <= j < i ==> sizes[j] == SizeAt(m, l, smooth', rng(j), scale, j)
    {
      sizes := sizes + [SizeAt(m, l, smooth', rng(i), scale, i)];
      i := i + 1;
    }
    l' := l.(sizes := sizes);
    if UnitDraws(rng) && 0.0 <= scale {
      forall i | 0 <= i < |sizes|
        ensures 0.5 * scale <= sizes[i] <= 7.5 * scale && (0.0 < scale ==> sizes[i] < 7.5 * scale)
      {
        var f := Falloff(Dist(m, l.positions[i], smooth'), SpotlightRadius);
        GlowSizeBounds(rng(i), scale, f);
      }
    }
  }
}

=== FILE: magnetic_field.dfy ===
/**
  The magnetic field ring of `MagneticField.tsx`: 200 points whose every
  frame position is a function of the clock and the pointer alone, a ring
  rotating at half a radian per second round the pointer with a radius
  breathing between 5 and 25 and heights waving within 10 of the pointer.
 */
module MagneticField {
  import opened Maths

  const ParticleCount: nat := 200

  /**
    The buffers as one render builds them: positions and sizes, three draws
    per point. The component body redraws them on every render, outside any
    memo.
   */
  datatype Field = Field(positions: seq<Vec3>, sizes: seq<real>)

  /** The initial ring: radius `20 + 30 r`, height `(r - 0.5) * 20`, size `0.5 r + 0.1`. */
  function Build(m: Libm, rng: Rng): (f: Field)
    requires Lawful(m)
    ensures |f.positions| == |f.sizes| == ParticleCount
    ensures forall i :: 0 <= i < ParticleCount ==>
      Sq(f.positions[i].x) + Sq(f.positions[i].z) == Sq(20.0 + rng(3 * i) * 30.0)
    ensures forall i :: 0 <= i < ParticleCount ==> f.positions[i].y == (rng(3 * i + 1) - 0.5) * 20.0
    ensures UnitDraws(rng) ==> forall i :: 0 <= i < ParticleCount ==> 0.1 <= f.sizes[i] < 0.6
  {
    Field(seq(ParticleCount, i requires 0 <= i < ParticleCount =>
                RingPoint(m, Origin, RingAngle(i, 0.0), 20.0 + rng(3 * i) * 30.0, (rng(3 * i + 1) - 0.5) * 20.0)),
          seq(ParticleCount, i requires 0 <= i < ParticleCount => rng(3 * i + 2) * 0.5 + 0.1))
  }

  /** The angle of point `i` at time `t`: evenly spaced, turning at 0.5 rad/s. */
  function RingAngle(i: nat, time: real): real {
    (i as real / ParticleCount as real) * Pi * 2.0 + time * 0.5
  }

  /** The ring radius of point `i` at time `t`: `15 + 10 sin(2t + 0.1 i)`. */
  function RingRadius(m: Libm, i: nat, time: real): (r: real)
    requires Lawful(m)
    ensures 5.0 <= r <= 25.0
  {
    15.0 + m.sin(time * 2.0 + i as real * 0.1) * 10.0
  }

  /** The height of point `i` at time `t`: `10 sin(t + 0.2 i)`. */
  function RingHeight(m: Libm, i: nat, time: real): (h: real)
    requires Lawful(m)
    ensures -10.0 <= h <= 10.0
  {
    m.sin(time + i as real * 0.2) * 10.0
  }

  /** The point at `angle`, `radius` and `height` about `centre`. */
  function RingPoint(m: Libm, centre: Vec3, angle: real, radius: real, height: real): (p: Vec3)
    requires Lawful(m)
    ensures Sq(p.x - centre.x) + Sq(p.z - centre.z) == Sq(radius)
    ensures p.y - centre.y == height
  {
    var p := Vec3(centre.x + m.cos(angle) * radius, centre.y + height, centre.z + m.sin(angle) * radius);
    PolarRadius(m, angle, radius);
    p
  }

  /** Point `i` of the frame at time `t` with the pointer at `mouse`. */
  function FieldPoint(m: Libm, mouse: Vec3, time: real, i: nat): (p: Vec3)
    requires Lawful(m)
    ensures Sq(p.x - mouse.x) + Sq(p.z - mouse.z) == Sq(RingRadius(m, i, time))
    ensures 25.0 <= Sq(p.x - mouse.x) + Sq(p.z - mouse.z) <= 625.0
    ensures -10.0 <= p.y - mouse.y <= 10.0
  {
    var r := RingRadius(m, i, time);
    SqLe(5.0, r);
    SqLe(r, 25.0);
    RingPoint(m, mouse, RingAngle(i, time), r, RingHeight(m, i, time))
  }

  lemma SqLe(a: real, b: real)
    requires 0.0 <= a <= b
    ensures Sq(a) <= Sq(b)
  {
    MulNonNeg(b - a, b + a);
    assert Mul(b - a, b + a) == Sq(b) - Sq(a);
  }

  /** Neighbouring points are a two-hundredth of a turn apart. */
  lemma EvenlySpaced(i: nat, time: real)
    ensures RingAngle(i + 1, time) - RingAngle(i, time) == Pi * 2.0 / ParticleCount as real
  {
    assert (i + 1) as real / 200.0 - i as real / 200.0 == 1.0 / 200.0;
  }

  /** The ring turns at half a radian per second. */
  lemma TurnsSteadily(i: nat, time: real, dt: real)
    ensures RingAngle(i, time + dt) - RingAngle(i, time) == dt * 0.5
  {
  }

  /** Moving the pointer moves the whole ring with it. */
  lemma FollowsPointer(m: Libm, mouse: Vec3, d: Vec3, time: real, i: nat)
    requires Lawful(m)
    ensures FieldPoint(m, Add(mouse, d), time, i) == Add(FieldPoint(m, mouse, time, i), d)
  {
  }

  /**
    One frame: all 200 positions are rewritten from the clock and the pointer.
    The previous positions and the sizes play no part.
   */
  method Frame(m: Libm, mouse: Vec3, time: real) returns (positions: seq<real>)
    requires Lawful(m)
    ensures |positions| == 3 * ParticleCount
    ensures forall i :: 0 <= i < ParticleCount ==> PositionAt(positions, i) == FieldPoint(m, mouse, time, i)
  {
    positions := [];
    var i := 0;
    while i < ParticleCount
      invariant 0 <= i <= ParticleCount
      invariant |positions| == 3 * i
      invariant forall j :: 0 <= j < i ==> PositionAt(positions, j) == FieldPoint(m, mouse, time, j)
    {
      var p := FieldPoint(m, mouse, time, i);
      positions := positions + [p.x, p.y, p.z];
      i := i + 1;
    }
  }
}

=== FILE: maths.dfy ===
/**
  Shared numeric vocabulary of the particle layers: 3-vectors and RGB triples
  over `real`, the linear falloff, linear interpolation, bin indexing, and the
  library functions (sqrt, sin, cos, atan2, acos, HSL conversion) that the
  components call but whose implementation is outside the model. Those are
  passed around in a `Libm` record and constrained by `Lawful`; random draws
  are a stream of values in [0, 1).
 */
module Maths {

  datatype Option<+T> = None | Some(value: T)

  /** Value of `Math.PI`. */
  const Pi: real := 3.141592653589793

  datatype Vec3 = Vec3(x: real, y: real, z: real)

  datatype Rgb = Rgb(r: real, g: real, b: real)

  const Origin := Vec3(0.0, 0.0, 0.0)

  function Add(a: Vec3, b: Vec3): Vec3 {
    Vec3(a.x + b.x, a.y + b.y, a.z + b.z)
  }

  function Sub(a: Vec3, b: Vec3): Vec3 {
    Vec3(a.x - b.x, a.y - b.y, a.z - b.z)
  }

  function Scale(v: Vec3, k: real): Vec3 {
    Vec3(v.x * k, v.y * k, v.z * k)
  }

  /**
    The square of a number. Squares are kept behind this function so that the
    solver reasons about them as terms rather than rewriting sign facts.
   */
  function Sq(a: real): real {
    a * a
  }

  function Mul(a: real, b: real): real {
    a * b
  }

  function NormSq(v: Vec3): real {
    Sq(v.x) + Sq(v.y) + Sq(v.z)
  }

  /** Every channel lies in [0, 1]. */
  predicate InUnit(c: Rgb) {
    0.0 <= c.r <= 1.0 && 0.0 <= c.g <= 1.0 && 0.0 <= c.b <= 1.0
  }

  function Min(a: real, b: real): real {
    if a <= b then a else b
  }

  function Max(a: real, b: real): real {
    if a >= b then a else b
  }

  function Abs(a: real): real {
    if a < 0.0 then -a else a
  }

  /** `Math.min(1, v)`, the colour clamp used by every colour stage. */
  function Clamp1(v: real): (c: real)
    ensures c <= 1.0
    ensures 0.0 <= v ==> 0.0 <= c
    ensures v <= 1.0 ==> c == v
  {
    Min(1.0, v)
  }

  /**
    Linear radial attenuation `max(0, 1 - d/radius)`: the same formula is used
    by the spotlight, pointer-follow, drag-vortex and glow layers.
   */
  function Falloff(d: real, radius: real): (f: real)
    requires 0.0 < radius
    ensures 0.0 <= f
    ensures 0.0 <= d ==> f <= 1.0
    ensures d == 0.0 ==> f == 1.0
    ensures f == 0.0 <==> radius <= d
    ensures 0.0 < f ==> f + d / radius == 1.0
  {
    DivAtLeastOne(d, radius);
    Max(0.0, 1.0 - d / radius)
  }

  lemma DivAtLeastOne(d: real, radius: real)
    requires 0.0 < radius
    ensures 1.0 <= d / radius <==> radius <= d
  {
    var q := d / radius;
    assert q * radius == d;
    if 1.0 <= q {
      assert (q - 1.0) * radius >= 0.0;
    }
    if radius <= d {
      assert (q - 1.0) * radius == d - radius;
    }
  }

  /** A nearer point is never attenuated more than a farther one. */
  lemma FalloffAntitone(d1: real, d2: real, radius: real)
    requires 0.0 < radius
    requires d1 <= d2
    ensures Falloff(d2, radius) <= Falloff(d1, radius)
  {
    assert d2 / radius - d1 / radius == (d2 - d1) / radius;
  }

  /**
    `THREE.MathUtils.lerp` and `Vector3.lerp` on one component: move the
    fraction `t` of the way from `a` towards `b`.
   */
  function Lerp(a: real, b: real, t: real): (r: real)
    ensures b - r == (1.0 - t) * (b - a)
    ensures 0.0 <= t <= 1.0 ==> Min(a, b) <= r <= Max(a, b)
  {
    a + (b - a) * t
  }

  function VLerp(a: Vec3, b: Vec3, t: real): (r: Vec3)
    ensures Sub(b, r) == Scale(Sub(b, a), 1.0 - t)
  {
    Vec3(Lerp(a.x, b.x, t), Lerp(a.y, b.y, t), Lerp(a.z, b.z, t))
  }

  /**
    `Math.floor(frac * len)` for a fraction in [0, 1): a valid index into a
    non-empty array of length `len`.
   */
  function ScaledIndex(frac: real, len: nat): (k: int)
    requires 0.0 <= frac < 1.0
    ensures 0 <= k
    ensures 0 < len ==> k < len
    ensures len == 0 ==> k == 0
  {
    var x := frac * len as real;
    assert x < len as real || len == 0 by {
      if 0 < len {
        assert frac * len as real < 1.0 * len as real;
      }
    }
    x.Floor
  }

  /** `Math.floor((i / count) * len)`: the bin a particle of a pool reads. */
  function BinIndex(i: nat, count: nat, len: nat): (k: int)
    requires i < count
    ensures 0 <= k
    ensures 0 < len ==> k < len
  {
    ScaledIndex(i as real / count as real, len)
  }

  /** `audio[k] || 0`: an element when the index is in range, otherwise 0. */
  function SampleOrZero(audio: seq<real>, k: int): (v: real)
    ensures 0 <= k < |audio| ==> v == audio[k]
    ensures !(0 <= k < |audio|) ==> v == 0.0
  {
    if 0 <= k < |audio| then audio[k] else 0.0
  }

  /**
    The library functions the components call. `atan2` and `acos` carry no law:
    the model only uses them as angles fed to `sin` and `cos`.
   */
  datatype Libm = Libm(
    sqrt: real -> real,
    sin: real -> real,
    cos: real -> real,
    atan2: (real, real) -> real,
    acos: real -> real,
    hsl: (real, real, real) -> Rgb)

  ghost predicate Lawful(m: Libm) {
    && (forall y :: 0.0 <= y ==> 0.0 <= m.sqrt(y) && Sq(m.sqrt(y)) == y)
    && (forall a :: Sq(m.sin(a)) + Sq(m.cos(a)) == 1.0)
    && (forall a :: -1.0 <= m.sin(a) <= 1.0)
    && (forall a :: -1.0 <= m.cos(a) <= 1.0)
    && (forall h, s, l :: InUnit(m.hsl(h, s, l)))
  }

  /** `Color.setHSL` always yields channels in [0, 1]. */
  lemma HslInUnit(m: Libm, h: real, s: real, l: real)
    requires Lawful(m)
    ensures InUnit(m.hsl(h, s, l))
  {
  }

  /** A stream of `Math.random()` results, indexed by call order. */
  type Rng = nat -> real

  ghost predicate UnitDraws(rng: Rng) {
    forall k :: 0.0 <= rng(k) < 1.0
  }

  /** Euclidean length via the library square root (`Vector3.length`). */
  function Length(m: Libm, v: Vec3): real {
    m.sqrt(NormSq(v))
  }

  /**
    `Vector3.normalize`: divides by `length() || 1`, so the zero vector is
    returned unchanged and every other vector is scaled to unit length.
   */
  function Normalize(m: Libm, v: Vec3): (u: Vec3)
    requires Lawful(m)
    ensures NormSq(v) == 0.0 ==> u == v
    ensures NormSq(v) != 0.0 ==> 0.0 < Length(m, v) && u == Scale(v, 1.0 / Length(m, v))
    ensures NormSq(v) != 0.0 ==> NormSq(u) == 1.0
  {
    var l := Length(m, v);
    NormSqNonNeg(v);
    if l == 0.0 then
      assert NormSq(v) == Sq(l) == 0.0;
      v
    else
      var u := Scale(v, 1.0 / l);
      NormSqScale(v, 1.0 / l);
      assert Sq(1.0 / l) * Sq(l) == 1.0;
      u
  }

  /** `a.distanceTo(b)`. */
  function Dist(m: Libm, a: Vec3, b: Vec3): (d: real)
    requires Lawful(m)
    ensures 0.0 <= d
    ensures Sq(d) == NormSq(Sub(a, b))
  {
    NormSqNonNeg(Sub(a, b));
    Length(m, Sub(a, b))
  }

  /** A point is at distance 0 from itself. */
  lemma DistToSelf(m: Libm, a: Vec3)
    requires Lawful(m)
    ensures Dist(m, a, a) == 0.0
  {
    assert NormSq(Sub(a, a)) == 0.0;
    SqrtZero(m);
  }

  /** The library square root of 0 is 0. */
  lemma SqrtZero(m: Libm)
    requires Lawful(m)
    ensures m.sqrt(0.0) == 0.0
  {
    var d := m.sqrt(0.0);
    assert 0.0 <= d && Sq(d) == 0.0;
    SquareMonotone(d, 0.0);
  }

  lemma MulPos(a: real, b: real)
    requires 0.0 < a && 0.0 < b
    ensures 0.0 < Mul(a, b)
  {
  }

  lemma MulNonNeg(a: real, b: real)
    requires 0.0 <= a && 0.0 <= b
    ensures 0.0 <= Mul(a, b)
  {
    if a != 0.0 && b != 0.0 { MulPos(a, b); }
  }

  /** Multiplying by a non-negative number keeps an inequality. */
  lemma MulLe(a: real, b: real, c: real)
    requires a <= b && 0.0 <= c
    ensures a * c <= b * c
  {
    MulNonNeg(b - a, c);
    assert Mul(b - a, c) == b * c - a * c;
  }

  lemma SqPos(z: real)
    requires z != 0.0
    ensures 0.0 < Sq(z)
  {
    if 0.0 < z {
      MulPos(z, z);
    } else {
      MulPos(-z, -z);
      assert Mul(-z, -z) == Sq(z);
    }
  }

  lemma SqNonNeg(z: real)
    ensures 0.0 <= Sq(z)
  {
    if z != 0.0 { SqPos(z); }
  }

  lemma NormSqNonNeg(v: Vec3)
    ensures 0.0 <= NormSq(v)
  {
    SqNonNeg(v.x);
    SqNonNeg(v.y);
    SqNonNeg(v.z);
  }

  /** Only the zero vector has zero length. */
  lemma NormSqPos(v: Vec3)
    requires v != Origin
    ensures 0.0 < NormSq(v)
  {
    NormSqNonNeg(v);
    if v.x != 0.0 { SqPos(v.x); }
    else if v.y != 0.0 { SqPos(v.y); }
    else { SqPos(v.z); }
  }

  lemma NormSqScale(v: Vec3, k: real)
    ensures NormSq(Scale(v, k)) == NormSq(v) * Sq(k)
  {
    assert Sq(v.x * k) == Sq(v.x) * Sq(k);
    assert Sq(v.y * k) == Sq(v.y) * Sq(k);
    assert Sq(v.z * k) == Sq(v.z) * Sq(k);
  }

  /** The library square root of a square is the non-negative base. */
  lemma SqrtOfSquare(m: Libm, r: real)
    requires Lawful(m)
    requires 0.0 <= r
    ensures m.sqrt(Sq(r)) == r
  {
    SqNonNeg(r);
    var s := m.sqrt(Sq(r));
    assert 0.0 <= s && Sq(s) == Sq(r);
    SquareMonotone(s, r);
    SquareMonotone(r, s);
  }

  /** Squaring is monotone on the non-negative reals, read backwards. */
  lemma SquareMonotone(x: real, y: real)
    requires 0.0 <= x && 0.0 <= y
    requires Sq(x) <= Sq(y)
    ensures x <= y
  {
    if x + y != 0.0 {
      assert (y - x) * (y + x) == Sq(y) - Sq(x);
      assert y - x == (Sq(y) - Sq(x)) / (y + x);
    }
  }

  /** A non-negative number whose square bounds `a * a` bounds `|a|`. */
  lemma AbsBoundedBySquare(a: real, s: real)
    requires 0.0 <= s
    requires Sq(a) <= Sq(s)
    ensures Abs(a) <= s
  {
    assert Sq(Abs(a)) == Sq(a);
    SquareMonotone(Abs(a), s);
  }

  /** Each component of a vector is bounded by its length. */
  lemma ComponentsBoundedByLength(m: Libm, v: Vec3)
    requires Lawful(m)
    ensures Abs(v.x) <= Length(m, v)
    ensures Abs(v.y) <= Length(m, v)
    ensures Abs(v.z) <= Length(m, v)
  {
    var s := Length(m, v);
    SqNonNeg(v.x);
    SqNonNeg(v.y);
    SqNonNeg(v.z);
    assert Sq(s) == NormSq(v);
    AbsBoundedBySquare(v.x, s);
    AbsBoundedBySquare(v.y, s);
    AbsBoundedBySquare(v.z, s);
  }

  /** Each component of a vector of length at most 1 lies in [-1, 1]. */
  lemma UnitComponents(u: Vec3)
    requires NormSq(u) <= 1.0
    ensures Abs(u.x) <= 1.0 && Abs(u.y) <= 1.0 && Abs(u.z) <= 1.0
  {
    SqNonNeg(u.x);
    SqNonNeg(u.y);
    SqNonNeg(u.z);
    assert Sq(1.0) == 1.0;
    AbsBoundedBySquare(u.x, 1.0);
    AbsBoundedBySquare(u.y, 1.0);
    AbsBoundedBySquare(u.z, 1.0);
  }

  /** `r * cos a` and `r * sin a` span a circle of radius `r`. */
  lemma PolarRadius(m: Libm, a: real, r: real)
    requires Lawful(m)
    ensures Sq(m.cos(a) * r) + Sq(m.sin(a) * r) == Sq(r)
  {
    var c, s := m.cos(a), m.sin(a);
    assert Sq(s) + Sq(c) == 1.0;
    calc {
      Sq(c * r) + Sq(s * r);
      (Sq(c) + Sq(s)) * Sq(r);
      Sq(r);
    }
  }

  /** The point stored at slot `i` of a flat `x, y, z, x, y, z, ...` buffer. */
  function PositionAt(buf: seq<real>, i: nat): Vec3
    requires 3 * i + 2 < |buf|
  {
    Vec3(buf[3 * i], buf[3 * i + 1], buf[3 * i + 2])
  }

  /** The colour stored at slot `i` of a flat `r, g, b, r, g, b, ...` buffer. */
  function ColorAt(buf: seq<real>, i: nat): Rgb
    requires 3 * i + 2 < |buf|
  {
    Rgb(buf[3 * i], buf[3 * i + 1], buf[3 * i + 2])
  }

  /** `b` to the power `n`. */
  function Pow(b: real, n: nat): real
    decreases n
  {
    if n == 0 then 1.0 else b * Pow(b, n - 1)
  }

  /** `Math.ceil` through `Floor`. */
  function Ceil(x: real): (n: int)
    ensures x <= n as real < x + 1.0
  {
    -((-x).Floor)
  }
}

=== FILE: mouse_trail.dfy ===
/**
  The pointer trail of `MouseTrail.tsx`: a point is dropped at the pointer at
  most every 0.02 s when the pointer has moved more than 0.1, the trail keeps
  the newest 50 points, and every frame each point loses `2 * delta` of life
  and shrinks, points at life 0 or below being removed.
 */
module MouseTrail {
  import opened Maths
  import Pool

  const MaxPoints: nat := 50
  const EmitInterval: real := 0.02
  const MinMove: real := 0.1

  datatype TrailPoint = TrailPoint(position: Vec3, life: real, size: real)

  datatype State = State(trail: seq<TrailPoint>, lastPos: Vec3, timer: real)

  const Initial := State([], Origin, 0.0)

  /** What every point of the trail satisfies between frames. */
  predicate Live(p: TrailPoint) {
    0.0 < p.life <= 1.0
  }

  predicate AllLive(trail: seq<TrailPoint>) {
    forall i :: 0 <= i < |trail| ==> Live(trail[i])
  }

  /** A trail point dropped at the pointer, its size drawn from [0.3, 0.8). */
  function NewPoint(pointer: Vec3, draw: real): (p: TrailPoint)
    ensures p.position == pointer && p.life == 1.0 && Live(p)
    ensures 0.0 <= draw < 1.0 ==> 0.3 <= p.size < 0.8
  {
    TrailPoint(pointer, 1.0, draw * 0.5 + 0.3)
  }

  /** One frame of ageing: life falls by `2 * delta`, size by the factor `1 - delta / 2`. */
  function Fade(p: TrailPoint, delta: real): (q: TrailPoint)
    ensures q.position == p.position
    ensures p.life - q.life == 2.0 * delta
    ensures q.size == Mul(p.size, 1.0 - delta * 0.5)
  {
    p.(life := p.life - delta * 2.0, size := Mul(p.size, 1.0 - delta * 0.5))
  }

  /** For frames shorter than two seconds a point shrinks but keeps a positive size. */
  lemma FadeShrinks(p: TrailPoint, delta: real)
    requires 0.0 <= delta < 2.0 && 0.0 < p.size
    ensures 0.0 < Fade(p, delta).size <= p.size
  {
    var factor := 1.0 - delta * 0.5;
    MulPos(p.size, factor);
    MulNonNeg(p.size, 1.0 - factor);
    assert p.size - Mul(p.size, factor) == Mul(p.size, 1.0 - factor);
  }

  predicate Visible(p: TrailPoint) {
    p.life > 0.0
  }

  function FadeAll(trail: seq<TrailPoint>, delta: real): (out: seq<TrailPoint>)
    ensures |out| == |trail|
    ensures forall i :: 0 <= i < |trail| ==> out[i] == Fade(trail[i], delta)
  {
    Pool.Map(trail, (p: TrailPoint) => Fade(p, delta))
  }

  /** The per-frame trail update: age every point, then drop the dead ones. */
  function UpdateTrail(trail: seq<TrailPoint>, delta: real): (out: seq<TrailPoint>)
    ensures |out| <= |trail|
    ensures forall q :: q in out ==> Visible(q) && exists p :: p in trail && q == Fade(p, delta)
    ensures forall i :: 0 <= i < |trail| && Visible(Fade(trail[i], delta)) ==> Fade(trail[i], delta) in out
  {
    var faded := FadeAll(trail, delta);
    Pool.FilterCounts(faded, Visible);
    assert forall i :: 0 <= i < |trail| && Visible(faded[i]) ==> multiset(faded)[faded[i]] > 0;
    forall q | q in Pool.Filter(faded, Visible)
      ensures exists p :: p in trail && q == Fade(p, delta)
    {
      var i :| 0 <= i < |faded| && faded[i] == q;
      assert trail[i] in trail;
    }
    Pool.Filter(faded, Visible)
  }

  /** Whether this frame drops a new point: the timer is due and the pointer moved. */
  predicate Emits(m: Libm, s: State, pointer: Vec3, delta: real)
    requires Lawful(m)
  {
    s.timer + delta > EmitInterval && Dist(m, s.lastPos, pointer) > MinMove
  }

  /**
    The trail the frame ages: with an emission, the new point appended and
    the trail capped at its newest 50 points; otherwise the trail as it is.
   */
  function Queued(m: Libm, s: State, pointer: Vec3, delta: real, draw: real): (q: seq<TrailPoint>)
    requires Lawful(m)
    ensures Emits(m, s, pointer, delta) ==> 0 < |q| <= MaxPoints && q[|q| - 1] == NewPoint(pointer, draw)
    ensures Emits(m, s, pointer, delta) ==> q == Pool.TakeLast(s.trail + [NewPoint(pointer, draw)], MaxPoints)
    ensures Emits(m, s, pointer, delta) ==> |q| - 1 <= |s.trail| && q[..|q| - 1] == s.trail[|s.trail| - (|q| - 1)..]
    ensures !Emits(m, s, pointer, delta) ==> q == s.trail
    ensures AllLive(s.trail) ==> AllLive(q)
  {
    if Emits(m, s, pointer, delta) then
      var all := s.trail + [NewPoint(pointer, draw)];
      var q := Pool.TakeLast(all, MaxPoints);
      assert q == all[|all| - |q|..];
      q
    else
      s.trail
  }

  /**
    One frame in source order: advance the timer, maybe append a point and cap
    the trail at 50 (resetting the timer), remember the pointer, age the trail.
   */
  function Frame(m: Libm, s: State, pointer: Vec3, delta: real, draw: real): (s': State)
    requires Lawful(m)
    ensures s'.lastPos == pointer
    ensures Emits(m, s, pointer, delta) ==> s'.timer == 0.0
    ensures !Emits(m, s, pointer, delta) ==> s'.timer == s.timer + delta && |s'.trail| <= |s.trail|
    ensures |s'.trail| <= MaxPoints || |s'.trail| <= |s.trail|
    ensures s'.trail == UpdateTrail(Queued(m, s, pointer, delta, draw), delta)
  {
    var q := Queued(m, s, pointer, delta, draw);
    State(UpdateTrail(q, delta), pointer, if Emits(m, s, pointer, delta) then 0.0 else s.timer + delta)
  }

  /** Frames keep the trail within 50 points and every point alive with life at most 1. */
  lemma FrameKeepsInvariant(m: Libm, s: State, pointer: Vec3, delta: real, draw: real)
    requires Lawful(m)
    requires |s.trail| <= MaxPoints && AllLive(s.trail) && 0.0 <= delta
    ensures |Frame(m, s, pointer, delta, draw).trail| <= MaxPoints
    ensures AllLive(Frame(m, s, pointer, delta, draw).trail)
  {
    var q := Queued(m, s, pointer, delta, draw);
    var out := UpdateTrail(q, delta);
    assert Frame(m, s, pointer, delta, draw).trail == out;
    forall r | r in out
      ensures Live(r)
    {
      var p :| p in q && r == Fade(p, delta);
    }
  }

  /** The update keeps the trail's order: it distributes over concatenation. */
  lemma UpdateKeepsOrder(a: seq<TrailPoint>, b: seq<TrailPoint>, delta: real)
    ensures UpdateTrail(a + b, delta) == UpdateTrail(a, delta) + UpdateTrail(b, delta)
  {
    assert FadeAll(a + b, delta) == FadeAll(a, delta) + FadeAll(b, delta);
    Pool.FilterAppend(FadeAll(a, delta), FadeAll(b, delta), Visible);
  }

  /** Ageing then filtering distributes over appending one point that survives. */
  lemma UpdateAppendVisible(a: seq<TrailPoint>, p: TrailPoint, delta: real)
    requires Visible(Fade(p, delta))
    ensures UpdateTrail(a + [p], delta) == UpdateTrail(a, delta) + [Fade(p, delta)]
  {
    UpdateKeepsOrder(a, [p], delta);
    Pool.FilterKeepsAll([Fade(p, delta)], Visible);
  }

  /**
    A frame shorter than half a second that drops a point keeps it as the
    newest trail point, aged by that frame.
   */
  lemma NewestPointKept(m: Libm, s: State, pointer: Vec3, delta: real, draw: real)
    requires Lawful(m)
    requires Emits(m, s, pointer, delta) && delta < 0.5
    ensures var t := Frame(m, s, pointer, delta, draw).trail;
      |t| > 0 && t[|t| - 1] == Fade(NewPoint(pointer, draw), delta)
  {
    var q := Queued(m, s, pointer, delta, draw);
    var n := NewPoint(pointer, draw);
    assert q == q[..|q| - 1] + [n];
    UpdateAppendVisible(q[..|q| - 1], n, delta);
  }

  /** A frame of half a second or more clears a trail of live points. */
  lemma LongFrameClears(m: Libm, s: State, pointer: Vec3, delta: real, draw: real)
    requires Lawful(m)
    requires AllLive(s.trail) && 0.5 <= delta
    ensures Frame(m, s, pointer, delta, draw).trail == []
  {
    var q := Queued(m, s, pointer, delta, draw);
    assert Frame(m, s, pointer, delta, draw).trail == UpdateTrail(q, delta);
    Pool.FilterKeepsNone(FadeAll(q, delta), Visible);
  }

  /** The vertex buffers the trail is drawn from. */
  datatype Buffers = Buffers(positions: seq<real>, sizes: seq<real>, opacities: seq<real>)

  /**
    The render step: nothing for an empty trail; otherwise flat positions,
    sizes scaled by life and opacities equal to life.
   */
  method Render(trail: seq<TrailPoint>) returns (b: Option<Buffers>)
    ensures b.None? <==> |trail| == 0
    ensures b.Some? ==> |b.value.positions| == 3 * |trail|
    ensures b.Some? ==> |b.value.sizes| == |trail| && |b.value.opacities| == |trail|
    ensures b.Some? ==> forall i :: 0 <= i < |trail| ==>
      PositionAt(b.value.positions, i) == trail[i].position
    ensures b.Some? ==> forall i :: 0 <= i < |trail| ==>
      b.value.sizes[i] == trail[i].size * trail[i].life && b.value.opacities[i] == trail[i].life
  {
    if |trail| == 0 {
      return None;
    }
    var positions: seq<real> := [];
    var sizes: seq<real> := [];
    var opacities: seq<real> := [];
    var i := 0;
    while i < |trail|
      invariant 0 <= i <= |trail|
      invariant |positions| == 3 * i && |sizes| == i && |opacities| == i
      invariant forall j :: 0 <= j < i ==> PositionAt(positions, j) == trail[j].position
      invariant forall j :: 0 <= j < i ==>
        sizes[j] == trail[j].size * trail[j].life && opacities[j] == trail[j].life
    {
      var p := trail[i];
      positions := positions + [p.position.x, p.position.y, p.position.z];
      sizes := sizes + [p.size * p.life];
      opacities := opacities + [p.life];
      i := i + 1;
    }
    return Some(Buffers(positions, sizes, opacities));
  }
}

=== FILE: particle_system.dfy ===
/**
  The 5000-star field of `ParticleSystem.tsx`. Every frame the pointer is
  smoothed, then each star in turn drifts around the vertical axis, is sized
  and brightened by the spotlight around the smoothed pointer, is lit by the
  ripple fronts passing over it, is pulled along by the pointer, is swirled by
  an active drag and pulses with the audio spectrum, in that order. Sizes and
  colours are recomputed from the star's base values every frame; positions
  and velocities carry over.
 */
module ParticleSystem {
  import opened Maths
  import RippleEffect
  import DragEffect

  const ParticleCount: nat := 5000
  const SpotlightRadius: real := 35.0
  const WaveWidth: real := 5.0
  const FollowRadius: real := 50.0
  const RepelRadius: real := 8.0
  const DragRadius: real := 40.0

  /** The smoothed pointer and its smoothed velocity, kept across frames. */
  datatype Pointer = Pointer(smooth: Vec3, velocity: Vec3)

  /** A star: where it is, how it moves, and the size and colour it was born with. */
  datatype Star = Star(position: Vec3, velocity: Vec3, baseSize: real, baseColor: Rgb)

  /** What a star looks like this frame. */
  datatype Look = Look(size: real, color: Rgb)

  datatype Motion = Motion(position: Vec3, velocity: Vec3)

  /** A star's motion and look at the end of its update. */
  datatype Shown = Shown(motion: Motion, look: Look)

  // ---------------------------------------------------------------------
  // Pointer smoothing

  /**
    The smoothed pointer closes a fifth of its gap to the pointer, and the
    smoothed velocity moves 30% of the way towards the displacement from the
    old smoothed pointer to the pointer.
   */
  function SmoothPointer(p: Pointer, mouse: Vec3): (p': Pointer)
    ensures Sub(mouse, p'.smooth) == Scale(Sub(mouse, p.smooth), 0.8)
    ensures Sub(Sub(mouse, p.smooth), p'.velocity) == Scale(Sub(Sub(mouse, p.smooth), p.velocity), 0.7)
  {
    Pointer(VLerp(p.smooth, mouse, 0.2), VLerp(p.velocity, Sub(mouse, p.smooth), 0.3))
  }

  /** `n` frames with the pointer held at `mouse`. */
  function HoldStill(p: Pointer, mouse: Vec3, n: nat): Pointer
    decreases n
  {
    if n == 0 then p else HoldStill(SmoothPointer(p, mouse), mouse, n - 1)
  }

  lemma ScaleScale(v: Vec3, a: real, b: real)
    ensures Scale(Scale(v, a), b) == Scale(v, a * b)
  {
  }

  /** With the pointer held still, the smoothed pointer's gap shrinks by 0.8 per frame. */
  lemma {:induction false} SmoothingConverges(p: Pointer, mouse: Vec3, n: nat)
    ensures Sub(mouse, HoldStill(p, mouse, n).smooth) == Scale(Sub(mouse, p.smooth), Pow(0.8, n))
    decreases n
  {
    if n == 0 {
      assert Scale(Sub(mouse, p.smooth), 1.0) == Sub(mouse, p.smooth);
    } else {
      var q := SmoothPointer(p, mouse);
      SmoothingConverges(q, mouse, n - 1);
      ScaleScale(Sub(mouse, p.smooth), 0.8, Pow(0.8, n - 1));
    }
  }

  // ---------------------------------------------------------------------
  // Drift

  /** Angular speed of star `i`: 0.02 plus a thousandth per step of `i mod 20`. */
  function DriftSpeed(i: nat): (w: real)
    ensures 0.02 <= w <= 0.039
  {
    0.02 + (i % 20) as real * 0.001
  }

  /**
    The drift step: the star is put back on its circle around the vertical
    axis at the angle `atan2(z, x) + time * DriftSpeed(i)`, and floats up or
    down by `0.02 sin(time / 2 + i / 10)`.
   */
  function Drift(m: Libm, p: Vec3, time: real, i: nat): (q: Vec3)
    requires Lawful(m)
    ensures Sq(q.x) + Sq(q.z) == Sq(p.x) + Sq(p.z)
    ensures Abs(q.y - p.y) <= 0.02
  {
    var r := m.sqrt(Sq(p.x) + Sq(p.z));
    var a := m.atan2(p.z, p.x) + time * DriftSpeed(i);
    SqNonNeg(p.x);
    SqNonNeg(p.z);
    PolarRadius(m, a, r);
    Vec3(m.cos(a) * r, p.y + m.sin(time * 0.5 + i as real * 0.1) * 0.02, m.sin(a) * r)
  }

  /** The drift keeps the distance from the vertical axis. */
  lemma DriftKeepsAxisDistance(m: Libm, p: Vec3, time: real, i: nat)
    requires Lawful(m)
    ensures var q := Drift(m, p, time, i);
      m.sqrt(Sq(q.x) + Sq(q.z)) == m.sqrt(Sq(p.x) + Sq(p.z))
  {
  }

  // ---------------------------------------------------------------------
  // Spotlight

  /** Spotlight strength `max(0, 1 - d / 35)` at distance `d` from the smoothed pointer. */
  function Spotlight(m: Libm, pos: Vec3, smooth: Vec3): (s: real)
    requires Lawful(m)
    ensures 0.0 <= s <= 1.0
    ensures s == 0.0 <==> SpotlightRadius <= Dist(m, pos, smooth)
  {
    Falloff(Dist(m, pos, smooth), SpotlightRadius)
  }

  /** A star on the smoothed pointer is in full spotlight. */
  lemma FullSpotlightAtPointer(m: Libm, pos: Vec3)
    requires Lawful(m)
    ensures Spotlight(m, pos, pos) == 1.0
  {
    DistToSelf(m, pos);
  }

  /** The twinkle factor exactly as the source forms it. */
  function TwinkleAsWritten(m: Libm, time: real, i: nat, s: real): (k: real)
    requires Lawful(m)
    ensures 0.0 <= s <= 1.0 ==> -0.1 <= k <= 1.5
  {
    var a := m.sin(time * 3.0 + i as real * 0.5);
    var b := m.sin(time * 10.0 + i as real);
    UnitTimesFraction(b, s);
    a * 0.3 + 0.7 + Mul(b, s) * 0.5
  }

  /** A number in [-1, 1] times a fraction in [0, 1] stays within that fraction. */
  lemma UnitTimesFraction(a: real, s: real)
    ensures -1.0 <= a <= 1.0 && 0.0 <= s <= 1.0 ==> -s <= Mul(a, s) <= s
  {
    if -1.0 <= a <= 1.0 && 0.0 <= s <= 1.0 {
      MulLe(a, 1.0, s);
      assert a * s <= s;
      MulLe(-1.0, a, s);
      assert -s <= a * s;
      assert Mul(a, s) == a * s;
    }
  }

  /** The twinkle factor, kept from going below zero. */
  function Twinkle(m: Libm, time: real, i: nat, s: real): (k: real)
    requires Lawful(m)
    ensures 0.0 <= k
    ensures 0.0 <= s <= 1.0 ==> k <= 1.5
    ensures 0.0 <= TwinkleAsWritten(m, time, i, s) ==> k == TwinkleAsWritten(m, time, i, s)
  {
    Max(0.0, TwinkleAsWritten(m, time, i, s))
  }

  /** Every channel multiplied by `f` and capped at 1. */
  function Boost(c: Rgb, f: real): (b: Rgb)
    ensures InUnit(c) && 1.0 <= f ==> InUnit(b) && c.r <= b.r && c.g <= b.g && c.b <= b.b
  {
    BoostChannel(c.r, f);
    BoostChannel(c.g, f);
    BoostChannel(c.b, f);
    Rgb(Clamp1(c.r * f), Clamp1(c.g * f), Clamp1(c.b * f))
  }

  lemma BoostChannel(c: real, f: real)
    ensures 0.0 <= c <= 1.0 && 1.0 <= f ==> c <= Clamp1(c * f) <= 1.0
  {
    if 0.0 <= c <= 1.0 && 1.0 <= f {
      MulLe(1.0, f, c);
    }
  }

  /** The spotlight stage exactly as the source computes it. */
  function SpotlightLookAsWritten(m: Libm, star: Star, pos: Vec3, smooth: Vec3, time: real, i: nat): (l: Look)
    requires Lawful(m)
    ensures InUnit(star.baseColor) ==> InUnit(l.color)
  {
    var s := Spotlight(m, pos, smooth);
    Look(Mul(Mul(star.baseSize, TwinkleAsWritten(m, time, i, s)), 1.0 + s * 4.0),
         Boost(star.baseColor, 1.0 + s * 3.0))
  }

  /** Within 3.5 of the smoothed pointer a star's spotlight is at least 0.9. */
  lemma NearPointerSpotlight(m: Libm, pos: Vec3, smooth: Vec3)
    requires Lawful(m)
    requires Dist(m, pos, smooth) <= 3.5
    ensures 0.9 <= Spotlight(m, pos, smooth)
  {
    var d := Dist(m, pos, smooth);
    assert d / SpotlightRadius <= 0.1;
  }

  /**
    A star with spotlight at least 0.9 (as every star within 3.5 of the
    smoothed pointer has, by `NearPointerSpotlight`), at a moment when both
    twinkle sines are at most -0.95, gets a negative size from the source's
    formula.
   */
  lemma NegativeSizeAsWritten(m: Libm, star: Star, pos: Vec3, smooth: Vec3, time: real, i: nat)
    requires Lawful(m)
    requires 0.9 <= Spotlight(m, pos, smooth)
    requires 0.0 < star.baseSize
    requires m.sin(time * 3.0 + i as real * 0.5) <= -0.95
    requires m.sin(time * 10.0 + i as real) <= -0.95
    ensures SpotlightLookAsWritten(m, star, pos, smooth, time, i).size < 0.0
  {
    var s := Spotlight(m, pos, smooth);
    TwinkleDips(m, time, i, s);
    NegativeTimesPositive(star.baseSize, TwinkleAsWritten(m, time, i, s), s);
  }

  /** With spotlight at least 0.9 and both sines at most -0.95, the source's twinkle factor is negative. */
  lemma TwinkleDips(m: Libm, time: real, i: nat, s: real)
    requires Lawful(m)
    requires 0.9 <= s <= 1.0
    requires m.sin(time * 3.0 + i as real * 0.5) <= -0.95
    requires m.sin(time * 10.0 + i as real) <= -0.95
    ensures TwinkleAsWritten(m, time, i, s) < 0.0
  {
    var a := m.sin(time * 3.0 + i as real * 0.5);
    var b := m.sin(time * 10.0 + i as real);
    var nb := -b;
    MulLe(0.95, nb, s);
    assert 0.855 <= 0.95 * s <= nb * s;
    assert nb * s == -Mul(b, s);
    assert TwinkleAsWritten(m, time, i, s) == a * 0.3 + 0.7 + Mul(b, s) * 0.5;
  }

  lemma NegativeTimesPositive(b: real, k: real, s: real)
    requires 0.0 < b && k < 0.0 && 0.0 <= s
    ensures Mul(Mul(b, k), 1.0 + s * 4.0) < 0.0
  {
    MulPos(b, -k);
    assert Mul(b, -k) == -Mul(b, k);
    MulPos(-Mul(b, k), 1.0 + s * 4.0);
    assert Mul(-Mul(b, k), 1.0 + s * 4.0) == -Mul(Mul(b, k), 1.0 + s * 4.0);
  }

  /**
    The spotlight stage with the twinkle kept non-negative: a star of
    non-negative base size gets a size in [0, 7.5 * baseSize], the colour is
    the source's, and wherever the source's twinkle is non-negative the whole
    look is the source's.
   */
  function SpotlightLook(m: Libm, star: Star, pos: Vec3, smooth: Vec3, time: real, i: nat): (l: Look)
    requires Lawful(m)
    ensures 0.0 <= star.baseSize ==> 0.0 <= l.size <= star.baseSize * 7.5
    ensures l.color == SpotlightLookAsWritten(m, star, pos, smooth, time, i).color
    ensures (0.0 <= TwinkleAsWritten(m, time, i, Spotlight(m, pos, smooth))
             ==> l == SpotlightLookAsWritten(m, star, pos, smooth, time, i))
  {
    var s := Spotlight(m, pos, smooth);
    var k := Twinkle(m, time, i, s);
    SpotlightSizeBounds(star.baseSize, k, s);
    Look(Mul(Mul(star.baseSize, k), 1.0 + s * 4.0), Boost(star.baseColor, 1.0 + s * 3.0))
  }

  lemma SpotlightSizeBounds(b: real, k: real, s: real)
    requires 0.0 <= k <= 1.5 && 0.0 <= s <= 1.0
    ensures 0.0 <= b ==> 0.0 <= Mul(Mul(b, k), 1.0 + s * 4.0) <= b * 7.5
  {
    if 0.0 <= b {
      var bk := Mul(b, k);
      assert 0.0 <= bk <= 1.5 * b by {
        MulNonNeg(b, k);
        MulLe(k, 1.5, b);
      }
      var g := 1.0 + s * 4.0;
      assert 0.0 <= Mul(bk, g) <= 5.0 * bk by {
        MulNonNeg(bk, g);
        MulLe(g, 5.0, bk);
      }
    }
  }

  /** In the spotlight a star is never dimmer than its base colour. */
  lemma SpotlightBrightens(m: Libm, star: Star, pos: Vec3, smooth: Vec3, time: real, i: nat)
    requires Lawful(m)
    requires InUnit(star.baseColor)
    ensures var c := SpotlightLook(m, star, pos, smooth, time, i).color;
      && InUnit(c)
      && star.baseColor.r <= c.r && star.baseColor.g <= c.g && star.baseColor.b <= c.b
  {
  }

  // ---------------------------------------------------------------------
  // Ripples

  /** Every ripple has intensity in [0, 1] and a colour in the unit cube. */
  predicate Tame(rs: seq<RippleEffect.Ripple>) {
    forall k :: 0 <= k < |rs| ==> 0.0 <= rs[k].intensity <= 1.0 && InUnit(rs[k].color)
  }

  /** Live ripples, as the ripple generator keeps them, are tame. */
  lemma LiveRipplesAreTame(rs: seq<RippleEffect.Ripple>)
    requires RippleEffect.AllLive(rs)
    ensures Tame(rs)
  {
  }

  /** The star lies within 5 units of the ripple's front. */
  predicate InBand(m: Libm, pos: Vec3, r: RippleEffect.Ripple)
    requires Lawful(m)
  {
    Abs(Dist(m, pos, r.position) - r.radius) < WaveWidth
  }

  /** `(1 - |d - radius| / 5) * intensity`: full at the front, fading to 0 at 5 units off it. */
  function WaveIntensity(m: Libm, pos: Vec3, r: RippleEffect.Ripple): (w: real)
    requires Lawful(m)
    ensures InBand(m, pos, r) && 0.0 <= r.intensity ==> 0.0 <= w <= r.intensity
    ensures InBand(m, pos, r) && 0.0 < r.intensity ==> 0.0 < w
  {
    var f := 1.0 - Abs(Dist(m, pos, r.position) - r.radius) / WaveWidth;
    WaveBounds(f, r.intensity);
    Mul(f, r.intensity)
  }

  lemma WaveBounds(f: real, a: real)
    ensures 0.0 < f <= 1.0 && 0.0 <= a ==> 0.0 <= Mul(f, a) <= a
    ensures 0.0 < f <= 1.0 && 0.0 < a ==> 0.0 < Mul(f, a)
  {
    if 0.0 < f <= 1.0 && 0.0 <= a {
      MulNonNeg(f, a);
      MulLe(f, 1.0, a);
      if 0.0 < a {
        MulPos(f, a);
      }
    }
  }

  /** The accumulated ripple effect and the summed ripple tint at one star. */
  datatype RippleMix = RippleMix(effect: real, tint: Rgb)

  /**
    The ripples in list order: every ripple whose front is within 5 units
    raises the effect to its wave intensity if that is larger, and adds its
    colour weighted by that intensity to the tint.
   */
  function Mix(m: Libm, pos: Vec3, rs: seq<RippleEffect.Ripple>): RippleMix
    requires Lawful(m)
    decreases |rs|
  {
    if |rs| == 0 then RippleMix(0.0, Rgb(0.0, 0.0, 0.0))
    else
      var acc := Mix(m, pos, rs[..|rs| - 1]);
      var r := rs[|rs| - 1];
      if InBand(m, pos, r) then
        var w := WaveIntensity(m, pos, r);
        RippleMix(Max(acc.effect, w),
                  Rgb(acc.tint.r + Mul(r.color.r, w), acc.tint.g + Mul(r.color.g, w), acc.tint.b + Mul(r.color.b, w)))
      else
        acc
  }

  /**
    The ripple effect is the largest wave intensity among the ripples whose
    front passes within 5 units of the star, and 0 when there is none; with
    tame ripples it is at most 1 and the tint is non-negative.
   */
  lemma {:induction false} MixIsMax(m: Libm, pos: Vec3, rs: seq<RippleEffect.Ripple>)
    requires Lawful(m)
    ensures 0.0 <= Mix(m, pos, rs).effect
    ensures forall k :: 0 <= k < |rs| && InBand(m, pos, rs[k]) ==> WaveIntensity(m, pos, rs[k]) <= Mix(m, pos, rs).effect
    ensures Mix(m, pos, rs).effect == 0.0
            || exists k :: 0 <= k < |rs| && InBand(m, pos, rs[k]) && Mix(m, pos, rs).effect == WaveIntensity(m, pos, rs[k])
    ensures Tame(rs) ==> Mix(m, pos, rs).effect <= 1.0
    ensures Tame(rs) ==> 0.0 <= Mix(m, pos, rs).tint.r && 0.0 <= Mix(m, pos, rs).tint.g && 0.0 <= Mix(m, pos, rs).tint.b
    decreases |rs|
  {
    if |rs| > 0 {
      var n := |rs| - 1;
      var pre := rs[..n];
      MixIsMax(m, pos, pre);
      assert forall k :: 0 <= k < n ==> pre[k] == rs[k];
      var r := rs[n];
      var acc := Mix(m, pos, pre);
      if InBand(m, pos, r) {
        var w := WaveIntensity(m, pos, r);
        if Tame(rs) {
          assert Tame(pre);
          MulNonNeg(r.color.r, w);
          MulNonNeg(r.color.g, w);
          MulNonNeg(r.color.b, w);
        }
        if acc.effect != 0.0 && w < acc.effect {
          var k :| 0 <= k < n && InBand(m, pos, pre[k]) && acc.effect == WaveIntensity(m, pos, pre[k]);
          assert InBand(m, pos, rs[k]) && Mix(m, pos, rs).effect == WaveIntensity(m, pos, rs[k]);
        }
      } else if acc.effect != 0.0 {
        var k :| 0 <= k < n && InBand(m, pos, pre[k]) && acc.effect == WaveIntensity(m, pos, pre[k]);
        assert InBand(m, pos, rs[k]) && Mix(m, pos, rs).effect == WaveIntensity(m, pos, rs[k]);
      }
    }
  }

  /** For ripples of positive intensity the effect is positive exactly when some front is in band. */
  lemma EffectPositiveIffInBand(m: Libm, pos: Vec3, rs: seq<RippleEffect.Ripple>)
    requires Lawful(m)
    requires forall k :: 0 <= k < |rs| ==> 0.0 < rs[k].intensity
    ensures 0.0 < Mix(m, pos, rs).effect <==> exists k :: 0 <= k < |rs| && InBand(m, pos, rs[k])
  {
    MixIsMax(m, pos, rs);
    if exists k :: 0 <= k < |rs| && InBand(m, pos, rs[k]) {
      var k :| 0 <= k < |rs| && InBand(m, pos, rs[k]);
      assert 0.0 < WaveIntensity(m, pos, rs[k]);
    }
  }

  /**
    `min(1, c * keep + t * k)`: a channel keeps the fraction `keep` of itself
    and takes on `t` weighted by `k`.
   */
  function Blend(c: real, keep: real, t: real, k: real): (b: real)
    ensures b <= 1.0
    ensures 0.0 <= c && 0.0 <= keep && 0.0 <= t && 0.0 <= k ==> 0.0 <= b
  {
    BlendNonNeg(c, keep, t, k);
    Clamp1(Mul(c, keep) + Mul(t, k))
  }

  lemma BlendNonNeg(c: real, keep: real, t: real, k: real)
    ensures 0.0 <= c && 0.0 <= keep && 0.0 <= t && 0.0 <= k ==> 0.0 <= Mul(c, keep) + Mul(t, k)
  {
    if 0.0 <= c && 0.0 <= keep && 0.0 <= t && 0.0 <= k {
      MulNonNeg(c, keep);
      MulNonNeg(t, k);
    }
  }

  function Tint(c: Rgb, keep: real, t: Rgb, k: real): (b: Rgb)
    ensures InUnit(c) && 0.0 <= keep && 0.0 <= t.r && 0.0 <= t.g && 0.0 <= t.b && 0.0 <= k ==> InUnit(b)
  {
    Rgb(Blend(c.r, keep, t.r, k), Blend(c.g, keep, t.g, k), Blend(c.b, keep, t.b, k))
  }

  /** `size * (1 + k)`: a non-negative size never shrinks for a non-negative `k`. */
  function Grow(size: real, k: real): (g: real)
    ensures 0.0 <= size && 0.0 <= k ==> size <= g
  {
    GrowBound(size, k);
    Mul(size, 1.0 + k)
  }

  lemma GrowBound(size: real, k: real)
    ensures 0.0 <= size && 0.0 <= k ==> size <= Mul(size, 1.0 + k)
  {
    if 0.0 <= size && 0.0 <= k {
      MulLe(1.0, 1.0 + k, size);
    }
  }

  /**
    The ripple stage: with a positive effect the size grows by `1 + 3 effect`
    and each channel keeps `1 - effect / 2` of itself plus the tint weighted
    by the effect; with no effect the look is untouched.
   */
  function RippleLook(l: Look, x: RippleMix): (l': Look)
    ensures x.effect <= 0.0 ==> l' == l
    ensures 0.0 <= l.size ==> l.size <= l'.size
    ensures (InUnit(l.color) && x.effect <= 1.0 && 0.0 <= x.tint.r && 0.0 <= x.tint.g && 0.0 <= x.tint.b
             ==> InUnit(l'.color))
  {
    if x.effect > 0.0 then
      Look(Grow(l.size, x.effect * 3.0), Tint(l.color, 1.0 - x.effect * 0.5, x.tint, x.effect))
    else
      l
  }

  /** With no ripple front within 5 units of the star, the ripple stage changes nothing. */
  lemma NoFrontNoChange(m: Libm, pos: Vec3, rs: seq<RippleEffect.Ripple>, l: Look)
    requires Lawful(m)
    requires forall k :: 0 <= k < |rs| ==> !InBand(m, pos, rs[k])
    ensures Mix(m, pos, rs).effect == 0.0
    ensures RippleLook(l, Mix(m, pos, rs)) == l
  {
    MixIsMax(m, pos, rs);
  }

  // ---------------------------------------------------------------------
  // Following the pointer

  /** Every velocity component is at most 1.6 in magnitude. */
  predicate Calm(v: Vec3) {
    Abs(v.x) <= 1.6 && Abs(v.y) <= 1.6 && Abs(v.z) <= 1.6
  }

  /** The direction `-offset / |offset|` from a star to the pointer: a unit vector. */
  function Toward(m: Libm, offset: Vec3): (u: Vec3)
    requires Lawful(m) && offset != Origin
    ensures NormSq(u) == 1.0
    ensures Abs(u.x) <= 1.0 && Abs(u.y) <= 1.0 && Abs(u.z) <= 1.0
  {
    var n := Normalize(m, offset);
    NormSqPos(offset);
    NormSqScale(n, -1.0);
    UnitComponents(n);
    Scale(n, -1.0)
  }

  /** A number in [-1, 1] scaled by `k >= 0` is at most `k` in magnitude. */
  lemma ScaledUnit(u: real, k: real)
    requires Abs(u) <= 1.0 && 0.0 <= k
    ensures Abs(Mul(u, k)) <= k
  {
    if 0.0 <= u {
      MulLe(u, 1.0, k);
      MulNonNeg(u, k);
    } else {
      MulLe(-u, 1.0, k);
      MulNonNeg(-u, k);
      assert Mul(-u, k) == -Mul(u, k);
    }
  }

  /** One velocity component, damped by 0.95 and pushed by at most 0.08. */
  lemma DampedStep(v: real, u: real, k: real)
    requires Abs(u) <= 1.0 && 0.0 <= k <= 0.08
    ensures Abs(v * 0.95 + Mul(u, k)) <= 0.95 * Abs(v) + 0.08
  {
    ScaledUnit(u, k);
  }

  /**
    The velocity inside the follow radius: damped by 0.95 and pushed by `k`
    along the direction `u` to the pointer.
   */
  function Pull(v: Vec3, u: Vec3, k: real): (v': Vec3)
    requires Abs(u.x) <= 1.0 && Abs(u.y) <= 1.0 && Abs(u.z) <= 1.0
    requires 0.0 <= k <= 0.08
    ensures Abs(v'.x) <= 0.95 * Abs(v.x) + 0.08
    ensures Abs(v'.y) <= 0.95 * Abs(v.y) + 0.08
    ensures Abs(v'.z) <= 0.95 * Abs(v.z) + 0.08
  {
    DampedStep(v.x, u.x, k);
    DampedStep(v.y, u.y, k);
    DampedStep(v.z, u.z, k);
    Vec3(v.x * 0.95 + Mul(u.x, k), v.y * 0.95 + Mul(u.y, k), v.z * 0.95 + Mul(u.z, k))
  }

  /**
    The follow stage. Within 50 units of the smoothed pointer the velocity is
    pulled towards it and added to the position, which also orbits, is carried
    by the pointer's wake and, within 8 units, is pushed back out; farther away
    the velocity decays by 0.98 and is added to the position. The source divides
    by the distance unguarded, so a star exactly on the smoothed pointer is
    outside the model.
   */
  function Follow(m: Libm, p: Pointer, time: real, i: nat, mo: Motion): (mo': Motion)
    requires Lawful(m)
    requires mo.position != p.smooth
    ensures FollowRadius <= Dist(m, mo.position, p.smooth) ==>
      mo'.velocity == Scale(mo.velocity, 0.98) && mo'.position == Add(mo.position, mo'.velocity)
    ensures Dist(m, mo.position, p.smooth) < FollowRadius ==>
      && Abs(mo'.velocity.x) <= 0.95 * Abs(mo.velocity.x) + 0.08
      && Abs(mo'.velocity.y) <= 0.95 * Abs(mo.velocity.y) + 0.08
      && Abs(mo'.velocity.z) <= 0.95 * Abs(mo.velocity.z) + 0.08
    ensures Calm(mo.velocity) ==> Calm(mo'.velocity)
  {
    var offset := Sub(mo.position, p.smooth);
    var d := Dist(m, mo.position, p.smooth);
    var f := Falloff(d, FollowRadius);
    if f > 0.0 then
      assert offset != Origin;
      var v := Pull(mo.velocity, Toward(m, offset), f * 0.08);
      var orbit := time * 2.0 + i as real * 0.1;
      var swirl := Vec3(m.cos(orbit) * offset.y * (f * 0.03), m.sin(orbit) * offset.x * (f * 0.03), 0.0);
      var moved := Add(Add(Add(mo.position, v), swirl), Scale(p.velocity, f * 0.3));
      var pos := if d < RepelRadius then Add(moved, Scale(offset, (1.0 - d / RepelRadius) * 0.1)) else moved;
      Motion(pos, v)
    else
      var v := Scale(mo.velocity, 0.98);
      Motion(Add(mo.position, v), v)
  }

  // ---------------------------------------------------------------------
  // Drag vortex

  /** The drag layer is present and a drag is in progress. */
  predicate DragActive(drag: Option<DragEffect.DragState>) {
    drag.Some? && drag.value.isDragging
  }

  /** `max(0, 1 - d / 40) * intensity` at distance `d` from the drag point. */
  function DragInfluence(m: Libm, pos: Vec3, d: DragEffect.DragState): (k: real)
    requires Lawful(m)
    ensures 0.0 <= d.intensity ==> 0.0 <= k <= d.intensity
    ensures k == 0.0 <==> d.intensity == 0.0 || DragRadius <= Dist(m, pos, d.currentPosition)
  {
    var f := Falloff(Dist(m, pos, d.currentPosition), DragRadius);
    WaveBounds(f, d.intensity);
    Mul(f, d.intensity)
  }

  /**
    The vortex displacement for the unit direction `tc` towards the drag
    point: `0.1 k` along it and `0.15 k` around the vertical axis.
   */
  function Vortex(tc: Vec3, k: real): Vec3 {
    Vec3(tc.x * (k * 0.1) + -tc.y * (k * 0.15), tc.y * (k * 0.1) + tc.x * (k * 0.15), tc.z * (k * 0.1))
  }

  function Dot(a: Vec3, b: Vec3): real {
    a.x * b.x + a.y * b.y + a.z * b.z
  }

  /** The swirl has no component along the direction to the drag point: only the attraction does. */
  lemma VortexAttractsAlongDirection(tc: Vec3, k: real)
    ensures Dot(Vortex(tc, k), tc) == k * 0.1 * NormSq(tc)
  {
  }

  /** A planar rotation-and-scale by `(a, s)` multiplies squared lengths by `a^2 + s^2`. */
  lemma TurnScalesNormSq(x: real, y: real, a: real, s: real)
    ensures Sq(x * a + -y * s) + Sq(y * a + x * s) == (Sq(x) + Sq(y)) * (Sq(a) + Sq(s))
  {
  }

  lemma SqOfProduct(x: real, y: real)
    ensures Sq(x * y) == Sq(x) * Sq(y)
  {
  }

  /** Dropping a non-negative share of the second term can only shrink the sum. */
  lemma DropShare(h: real, z: real, a: real, s: real)
    requires 0.0 <= z && 0.0 <= s
    ensures h * (a + s) + z * a <= (h + z) * (a + s)
  {
    MulNonNeg(z, s);
  }

  /** For a unit direction the vortex step is at most `sqrt(0.0325) k`, about `0.18 k`, long. */
  lemma VortexBounded(tc: Vec3, k: real)
    requires NormSq(tc) <= 1.0
    ensures NormSq(Vortex(tc, k)) <= 0.0325 * Sq(k)
  {
    var v := Vortex(tc, k);
    var a, s := k * 0.1, k * 0.15;
    var h := Sq(tc.x) + Sq(tc.y);
    var w := Sq(a) + Sq(s);
    assert w == 0.0325 * Sq(k);
    TurnScalesNormSq(tc.x, tc.y, a, s);
    assert Sq(v.x) + Sq(v.y) == h * w;
    SqOfProduct(tc.z, a);
    assert NormSq(v) == h * w + Sq(tc.z) * Sq(a);
    assert NormSq(tc) == h + Sq(tc.z);
    SqNonNeg(tc.z);
    SqNonNeg(s);
    DropShare(h, Sq(tc.z), Sq(a), Sq(s));
    SqNonNeg(a);
    MulLe(NormSq(tc), 1.0, w);
  }

  /** JavaScript's `x % 1`: the fractional part, carrying the sign of `x`. */
  function JsRemOne(x: real): (r: real)
    ensures 0.0 <= x ==> 0.0 <= r < 1.0
    ensures x < 0.0 ==> -1.0 < r <= 0.0
  {
    if 0.0 <= x then x - x.Floor as real else x + (-x).Floor as real
  }

  /**
    The drag stage. Only while a drag is in progress and the star is within
    reach of it: the star is pulled towards and swirled around the drag point,
    carried by the drag velocity, grows by `1 + 2k` and shifts `0.7 k` of its
    colour towards a rainbow hue.
   */
  function DragStage(m: Libm, time: real, drag: Option<DragEffect.DragState>, mo: Motion, l: Look): (r: Shown)
    requires Lawful(m)
    ensures !DragActive(drag) ==> r == Shown(mo, l)
    ensures DragActive(drag) && DragInfluence(m, mo.position, drag.value) == 0.0 ==> r == Shown(mo, l)
    ensures r.motion.velocity == mo.velocity
    ensures 0.0 <= l.size && (drag.Some? ==> 0.0 <= drag.value.intensity) ==> l.size <= r.look.size
    ensures InUnit(l.color) && (drag.Some? ==> 0.0 <= drag.value.intensity <= 1.0) ==> InUnit(r.look.color)
  {
    if DragActive(drag) && DragInfluence(m, mo.position, drag.value) > 0.0 then
      var d := drag.value;
      var k := DragInfluence(m, mo.position, d);
      var dd := Dist(m, mo.position, d.currentPosition);
      var tc := Normalize(m, Sub(d.currentPosition, mo.position));
      var pos := Add(Add(mo.position, Vortex(tc, k)), Scale(d.velocity, k * 0.02));
      var hue := JsRemOne(time * 2.0 + dd * 0.1);
      HslInUnit(m, hue, 0.8, 0.6);
      var c := m.hsl(hue, 0.8, 0.6);
      Shown(Motion(pos, mo.velocity), Look(Grow(l.size, k * 2.0), Tint(l.color, 1.0 - k * 0.7, c, k)))
    else
      Shown(mo, l)
  }

  // ---------------------------------------------------------------------
  // Audio

  /** The audio data is absent, or its samples and the sensitivity are non-negative. */
  predicate AudioNonNeg(audio: Option<seq<real>>, sensitivity: real) {
    audio.Some? ==> 0.0 <= sensitivity && forall k :: 0 <= k < |audio.value| ==> 0.0 <= audio.value[k]
  }

  /** Star `i` reads bin `floor(i / 5000 * len)`, which always exists, scaled by the sensitivity. */
  function AudioInfluence(audio: seq<real>, sensitivity: real, i: nat): (a: real)
    requires i < ParticleCount
    ensures 0 < |audio| ==> exists k :: 0 <= k < |audio| && a == audio[k] * sensitivity
  {
    var k := BinIndex(i, ParticleCount, |audio|);
    SampleOrZero(audio, k) * sensitivity
  }

  /**
    The audio stage, skipped for absent or empty data: the size grows by
    `1 + a` and every channel is boosted by `1 + a / 2`.
   */
  function AudioStage(audio: Option<seq<real>>, sensitivity: real, i: nat, l: Look): (l': Look)
    requires i < ParticleCount
    ensures audio.None? || |audio.value| == 0 ==> l' == l
    ensures AudioNonNeg(audio, sensitivity) && 0.0 <= l.size ==> l.size <= l'.size
    ensures AudioNonNeg(audio, sensitivity) && InUnit(l.color) ==> InUnit(l'.color)
  {
    if audio.Some? && |audio.value| > 0 then
      var a := AudioInfluence(audio.value, sensitivity, i);
      AudioNonNegInfluence(audio.value, sensitivity, i);
      Look(Grow(l.size, a), Boost(l.color, 1.0 + a * 0.5))
    else
      l
  }

  lemma AudioNonNegInfluence(audio: seq<real>, sensitivity: real, i: nat)
    requires i < ParticleCount && 0 < |audio|
    ensures AudioNonNeg(Some(audio), sensitivity) ==> 0.0 <= AudioInfluence(audio, sensitivity, i)
  {
    if AudioNonNeg(Some(audio), sensitivity) {
      var k := BinIndex(i, ParticleCount, |audio|);
      MulNonNeg(audio[k], sensitivity);
    }
  }

  // ---------------------------------------------------------------------
  // One star, one frame

  /** A star's standing invariant: non-negative base size, base colour in the unit cube, calm velocity. */
  predicate Healthy(star: Star) {
    0.0 <= star.baseSize && InUnit(star.baseColor) && Calm(star.velocity)
  }

  /** The per-frame inputs the colour and size ranges rely on. */
  predicate SafeInputs(ripples: seq<RippleEffect.Ripple>, drag: Option<DragEffect.DragState>,
                       audio: Option<seq<real>>, sensitivity: real)
  {
    && Tame(ripples)
    && (drag.Some? ==> 0.0 <= drag.value.intensity <= 1.0)
    && AudioNonNeg(audio, sensitivity)
  }

  /** All stages of one star in source order, given the already smoothed pointer. */
  function UpdateStar(m: Libm, p: Pointer, time: real, i: nat, star: Star,
                      ripples: seq<RippleEffect.Ripple>, drag: Option<DragEffect.DragState>,
                      audio: Option<seq<real>>, sensitivity: real): (r: Shown)
    requires Lawful(m) && i < ParticleCount
    requires Drift(m, star.position, time, i) != p.smooth
    ensures Healthy(star) && SafeInputs(ripples, drag, audio, sensitivity) ==>
      0.0 <= r.look.size && InUnit(r.look.color) && Calm(r.motion.velocity)
  {
    var pos := Drift(m, star.position, time, i);
    MixIsMax(m, pos, ripples);
    var lit := RippleLook(SpotlightLook(m, star, pos, p.smooth, time, i), Mix(m, pos, ripples));
    var mo := Follow(m, p, time, i, Motion(pos, star.velocity));
    var dragged := DragStage(m, time, drag, mo, lit);
    Shown(dragged.motion, AudioStage(audio, sensitivity, i, dragged.look))
  }

  /**
    With no ripple front near the star, no drag in progress and no audio, the
    star looks exactly as the spotlight stage makes it.
   */
  lemma QuietFrameIsSpotlight(m: Libm, p: Pointer, time: real, i: nat, star: Star,
                              ripples: seq<RippleEffect.Ripple>, drag: Option<DragEffect.DragState>,
                              audio: Option<seq<real>>, sensitivity: real)
    requires Lawful(m) && i < ParticleCount
    requires Drift(m, star.position, time, i) != p.smooth
    requires forall k :: 0 <= k < |ripples| ==> !InBand(m, Drift(m, star.position, time, i), ripples[k])
    requires !DragActive(drag) && (audio.None? || |audio.value| == 0)
    ensures UpdateStar(m, p, time, i, star, ripples, drag, audio, sensitivity).look
            == SpotlightLook(m, star, Drift(m, star.position, time, i), p.smooth, time, i)
  {
    var pos := Drift(m, star.position, time, i);
    NoFrontNoChange(m, pos, ripples, SpotlightLook(m, star, pos, p.smooth, time, i));
  }

  // ---------------------------------------------------------------------
  // The frame

  /**
    Slot `i` of a frame's output holds what `UpdateStar` made of the star:
    the base size and colour are kept, the motion, size and colour are the
    updated ones and the position buffer holds the new position.
   */
  predicate Wrote(star: Star, r: Shown, star': Star, position: Vec3, size: real, color: Rgb) {
    && star'.baseSize == star.baseSize && star'.baseColor == star.baseColor
    && Motion(star'.position, star'.velocity) == r.motion
    && position == star'.position
    && size == r.look.size && color == r.look.color
  }

  /** A healthy star whose update stays in range is written back healthy. */
  lemma WroteHealthy(star: Star, r: Shown, star': Star, position: Vec3, size: real, color: Rgb)
    requires Wrote(star, r, star', position, size, color)
    requires Healthy(star) && 0.0 <= r.look.size && InUnit(r.look.color) && Calm(r.motion.velocity)
    ensures Healthy(star') && 0.0 <= size && InUnit(color)
  {
  }

  /** Appending one slot to a flat buffer keeps the earlier slots and reads back as the new one. */
  lemma AppendSlot(buf: seq<real>, a: real, b: real, c: real)
    requires |buf| % 3 == 0
    ensures forall j: nat :: 3 * j + 2 < |buf| ==>
      PositionAt(buf + [a, b, c], j) == PositionAt(buf, j) && ColorAt(buf + [a, b, c], j) == ColorAt(buf, j)
    ensures PositionAt(buf + [a, b, c], |buf| / 3) == Vec3(a, b, c)
    ensures ColorAt(buf + [a, b, c], |buf| / 3) == Rgb(a, b, c)
  {
  }

  /** Every star's update against the already smoothed pointer, in index order. */
  function UpdateAll(m: Libm, p: Pointer, time: real, stars: seq<Star>,
                     ripples: seq<RippleEffect.Ripple>, drag: Option<DragEffect.DragState>,
                     audio: Option<seq<real>>, sensitivity: real): (rs: seq<Shown>)
    requires Lawful(m) && |stars| <= ParticleCount
    requires forall i: nat :: i < |stars| ==> Drift(m, stars[i].position, time, i) != p.smooth
    ensures |rs| == |stars|
    ensures forall i: nat :: i < |stars| ==> rs[i] == UpdateStar(m, p, time, i, stars[i], ripples, drag, audio, sensitivity)
  {
    seq(|stars|, i requires 0 <= i < |stars| => UpdateStar(m, p, time, i, stars[i], ripples, drag, audio, sensitivity))
  }

  /**
    Writes the updated stars back and fills the flat position, size and
    colour buffers, slot by slot in index order.
   */
  method WriteBack(stars: seq<Star>, rs: seq<Shown>)
    returns (stars': seq<Star>, positions: seq<real>, sizes: seq<real>, colors: seq<real>)
    requires |rs| == |stars|
    ensures |stars'| == |stars| && |sizes| == |stars|
    ensures |positions| == 3 * |stars| && |colors| == 3 * |stars|
    ensures forall i: nat :: i < |stars| ==>
      Wrote(stars[i], rs[i], stars'[i], PositionAt(positions, i), sizes[i], ColorAt(colors, i))
  {
    stars' := [];
    positions := [];
    sizes := [];
    colors := [];
    var i: nat := 0;
    while i < |stars|
      invariant i <= |stars|
      invariant |stars'| == i && |sizes| == i && |positions| == 3 * i && |colors| == 3 * i
      invariant forall j: nat :: j < i ==>
        Wrote(stars[j], rs[j], stars'[j], PositionAt(positions, j), sizes[j], ColorAt(colors, j))
    {
      var r := rs[i];
      var q := r.motion.position;
      var c := r.look.color;
      AppendSlot(positions, q.x, q.y, q.z);
      AppendSlot(colors, c.r, c.g, c.b);
      stars' := stars' + [stars[i].(position := q, velocity := r.motion.velocity)];
      positions := positions + [q.x, q.y, q.z];
      sizes := sizes + [r.look.size];
      colors := colors + [c.r, c.g, c.b];
      i := i + 1;
    }
  }

  /**
    One frame: smooth the pointer, then update every star in index order and
    write its position, size and colour into the flat attribute buffers.
   */
  method Frame(m: Libm, p: Pointer, mouse: Vec3, time: real, stars: seq<Star>,
               ripples: seq<RippleEffect.Ripple>, drag: Option<DragEffect.DragState>,
               audio: Option<seq<real>>, sensitivity: real)
    returns (p': Pointer, stars': seq<Star>, positions: seq<real>, sizes: seq<real>, colors: seq<real>)
    requires Lawful(m)
    requires |stars| == ParticleCount
    requires forall i: nat :: i < |stars| ==> Drift(m, stars[i].position, time, i) != SmoothPointer(p, mouse).smooth
    ensures p' == SmoothPointer(p, mouse)
    ensures |stars'| == |stars| && |sizes| == |stars|
    ensures |positions| == 3 * |stars| && |colors| == 3 * |stars|
    ensures forall i: nat :: i < |stars| ==>
      Wrote(stars[i], UpdateStar(m, p', time, i, stars[i], ripples, drag, audio, sensitivity),
            stars'[i], PositionAt(positions, i), sizes[i], ColorAt(colors, i))
    ensures (forall i :: 0 <= i < |stars| ==> Healthy(stars[i])) && SafeInputs(ripples, drag, audio, sensitivity) ==>
      forall i: nat :: i < |stars| ==> Healthy(stars'[i]) && 0.0 <= sizes[i] && InUnit(ColorAt(colors, i))
  {
    p' := SmoothPointer(p, mouse);
    var rs := UpdateAll(m, p', time, stars, ripples, drag, audio, sensitivity);
    stars', positions, sizes, colors := WriteBack(stars, rs);
    if (forall i :: 0 <= i < |stars| ==> Healthy(stars[i])) && SafeInputs(ripples, drag, audio, sensitivity) {
      forall i: nat | i < |stars|
        ensures Healthy(stars'[i]) && 0.0 <= sizes[i] && InUnit(ColorAt(colors, i))
      {
        var r := UpdateStar(m, p', time, i, stars[i], ripples, drag, audio, sensitivity);
        assert Healthy(stars[i]);
        WroteHealthy(stars[i], r, stars'[i], PositionAt(positions, i), sizes[i], ColorAt(colors, i));
      }
    }
  }
}

=== FILE: picking.dfy ===
/**
  The 3D point a click resolves to in the click, mousedown and shape handlers:
  the first ray hit when there is one, otherwise the point where the camera
  ray meets the plane z = 0. Ray casting and `unproject` stay outside the
  model; the ray direction is an input.
 */
module Picking {
  import opened Maths

  /**
    The no-hit fallback: normalise the ray direction `dir`, then walk
    `-cam.z / dir.z` along it from the camera. The source divides by the
    direction's z-component, so a ray parallel to the plane is excluded.
   */
  function PlaneFallback(m: Libm, cam: Vec3, dir: Vec3): (p: Vec3)
    requires Lawful(m)
    requires dir.z != 0.0
    ensures p.z == 0.0
    ensures p == Add(cam, Scale(dir, -cam.z / dir.z))
  {
    NormSqPos(dir);
    var u := Normalize(m, dir);
    var t := 1.0 / Length(m, dir);
    assert u == Scale(dir, t) && t != 0.0;
    assert u.z == dir.z * t && u.z != 0.0 by {
      MulNonZero(dir.z, t);
    }
    RayScaleCancels(cam, dir, t);
    Add(cam, Scale(u, -cam.z / u.z))
  }

  /** Walking `-cam.z / d.z` along `d` does not depend on the scale of `d`. */
  lemma RayScaleCancels(cam: Vec3, dir: Vec3, t: real)
    requires dir.z != 0.0 && t != 0.0
    ensures Scale(Scale(dir, t), -cam.z / (dir.z * t)) == Scale(dir, -cam.z / dir.z)
    ensures Add(cam, Scale(dir, -cam.z / dir.z)).z == 0.0
  {
    ScaleCancel(dir.x, dir.z, -cam.z, t);
    ScaleCancel(dir.y, dir.z, -cam.z, t);
    ScaleCancel(dir.z, dir.z, -cam.z, t);
    assert dir.z * (-cam.z / dir.z) == -cam.z;
  }

  lemma ScaleCancel(a: real, b: real, c: real, t: real)
    requires b != 0.0 && t != 0.0
    ensures (a * t) * (c / (b * t)) == a * (c / b)
  {
    assert c / (b * t) == (c / b) / t;
  }

  /** Scaling the ray direction by any non-zero factor gives the same point. */
  lemma FallbackIgnoresLength(m: Libm, cam: Vec3, dir: Vec3, k: real)
    requires Lawful(m)
    requires dir.z != 0.0 && k != 0.0
    ensures PlaneFallback(m, cam, Scale(dir, k)) == PlaneFallback(m, cam, dir)
  {
    var d2 := Scale(dir, k);
    MulNonZero(dir.z, k);
    assert d2.z == dir.z * k;
    RayScaleCancels(cam, dir, k);
    assert PlaneFallback(m, cam, d2) == Add(cam, Scale(d2, -cam.z / d2.z));
  }

  lemma MulNonZero(a: real, b: real)
    requires a != 0.0 && b != 0.0
    ensures a * b != 0.0
  {
  }

  /**
    A ray aimed from the camera at a point `q` of the plane z = 0 resolves to
    `q` itself, whatever the camera height and however the direction is scaled.
   */
  lemma FallbackHitsAimedPoint(m: Libm, cam: Vec3, q: Vec3, k: real)
    requires Lawful(m)
    requires q.z == 0.0 && cam.z != 0.0 && k != 0.0
    ensures PlaneFallback(m, cam, Scale(Sub(q, cam), k)) == q
  {
    var d := Sub(q, cam);
    FallbackIgnoresLength(m, cam, d, k);
    NegDivSelf(cam.z, d.z);
    assert Scale(d, 1.0) == d;
  }

  lemma NegDivSelf(a: real, b: real)
    requires b != 0.0 && a == -b
    ensures -a / b == 1.0
  {
  }

  /** The handlers' choice: a ray hit wins, otherwise the plane fallback. */
  function PickPoint(m: Libm, hit: Option<Vec3>, cam: Vec3, dir: Vec3): (p: Vec3)
    requires Lawful(m)
    requires hit.None? ==> dir.z != 0.0
    ensures hit.Some? ==> p == hit.value
    ensures hit.None? ==> p.z == 0.0
  {
    match hit
    case Some(point) => point
    case None => PlaneFallback(m, cam, dir)
  }
}

=== FILE: pool.dfy ===
/**
  The list operations every particle pool is built from: `Array.prototype.map`,
  `Array.prototype.filter` and the `slice(-n)` cap. Pools are sequences in
  insertion order, oldest first.
 */
module Pool {

  /** `s.map(f)`. */
  function Map<T, U>(s: seq<T>, f: T -> U): (r: seq<U>)
    ensures |r| == |s|
    ensures forall i :: 0 <= i < |s| ==> r[i] == f(s[i])
  {
    seq(|s|, i requires 0 <= i < |s| => f(s[i]))
  }

  /** `s.filter(keep)`: only kept elements of `s`, never more of them. */
  function Filter<T>(s: seq<T>, keep: T -> bool): (r: seq<T>)
    ensures |r| <= |s|
    ensures forall x :: x in r ==> x in s && keep(x)
  {
    if |s| == 0 then []
    else
      var rest := Filter(s[1..], keep);
      if keep(s[0]) then [s[0]] + rest else rest
  }

  /** The filter keeps exactly the kept elements, with their multiplicities. */
  lemma {:induction false} FilterCounts<T(!new)>(s: seq<T>, keep: T -> bool)
    ensures forall x :: multiset(Filter(s, keep))[x] == if keep(x) then multiset(s)[x] else 0
  {
    if |s| != 0 {
      FilterCounts(s[1..], keep);
      assert s == [s[0]] + s[1..];
      assert multiset(s) == multiset{s[0]} + multiset(s[1..]);
    }
  }

  /** Every element the filter passes is kept. */
  lemma {:induction false} FilterKeepsPassing<T>(s: seq<T>, keep: T -> bool)
    ensures forall i :: 0 <= i < |s| && keep(s[i]) ==> s[i] in Filter(s, keep)
  {
    if |s| != 0 {
      FilterKeepsPassing(s[1..], keep);
      assert forall i :: 1 <= i < |s| ==> s[i] == s[1..][i - 1];
    }
  }

  /** Filtering a concatenation filters each part in place: order is kept. */
  lemma {:induction false} FilterAppend<T>(a: seq<T>, b: seq<T>, keep: T -> bool)
    ensures Filter(a + b, keep) == Filter(a, keep) + Filter(b, keep)
  {
    if |a| == 0 {
      assert a + b == b;
    } else {
      var ab := a + b;
      assert ab[0] == a[0];
      assert ab[1..] == a[1..] + b;
      FilterAppend(a[1..], b, keep);
      if keep(a[0]) {
        calc {
          Filter(ab, keep);
          [a[0]] + Filter(a[1..] + b, keep);
          [a[0]] + (Filter(a[1..], keep) + Filter(b, keep));
          ([a[0]] + Filter(a[1..], keep)) + Filter(b, keep);
        }
      }
    }
  }

  /** A filter that keeps everything is the identity. */
  lemma {:induction false} FilterKeepsAll<T>(s: seq<T>, keep: T -> bool)
    requires forall i :: 0 <= i < |s| ==> keep(s[i])
    ensures Filter(s, keep) == s
  {
    if |s| != 0 {
      FilterKeepsAll(s[1..], keep);
    }
  }

  /** A filter that keeps nothing empties the pool. */
  lemma {:induction false} FilterKeepsNone<T>(s: seq<T>, keep: T -> bool)
    requires forall i :: 0 <= i < |s| ==> !keep(s[i])
    ensures Filter(s, keep) == []
  {
    if |s| != 0 {
      FilterKeepsNone(s[1..], keep);
    }
  }

  /** `s.slice(-n)` for `n > 0`: the newest `n` elements, or all of `s`. */
  function TakeLast<T>(s: seq<T>, n: nat): (r: seq<T>)
    requires 0 < n
    ensures |r| <= n
    ensures |r| == if |s| <= n then |s| else n
    ensures r == s[|s| - |r|..]
  {
    if |s| <= n then s else s[|s| - n..]
  }

  /** Appending to a pool and capping keeps the appended elements when they fit. */
  lemma TakeLastKeepsNewest<T>(s: seq<T>, added: seq<T>, n: nat)
    requires 0 < n
    requires |added| <= n
    ensures TakeLast(s + added, n)[|TakeLast(s + added, n)| - |added|..] == added
  {
  }
}

=== FILE: ripple_effect.dfy ===
/**
  The ripple generator of `RippleEffect.tsx`: click ripples, ripples spawned by
  fast pointer movement, and the per-frame expand-and-fade update that retires
  a ripple once it reaches its maximum radius or fades below 0.01.
 */
module RippleEffect {
  import opened Maths
  import Pool
  import Picking

  datatype Ripple = Ripple(
    id: string,
    position: Vec3,
    radius: real,
    maxRadius: real,
    intensity: real,
    color: Rgb,
    speed: real)

  /** What every ripple of the list satisfies between frames. */
  predicate Live(r: Ripple) {
    && 0.0 <= r.radius < r.maxRadius
    && 0.0 < r.intensity <= 1.0
    && 0.0 < r.speed
    && InUnit(r.color)
  }

  predicate AllLive(rs: seq<Ripple>) {
    forall i :: 0 <= i < |rs| ==> Live(rs[i])
  }

  /** The ripple a click creates at the picked point. */
  function ClickRipple(m: Libm, id: string, position: Vec3, hueDraw: real): (r: Ripple)
    requires Lawful(m)
    ensures r.position == position
    ensures r.radius == 0.0 && r.maxRadius == 80.0
    ensures r.intensity == 1.0 && r.speed == 1.5
    ensures Live(r)
  {
    Ripple(id, position, 0.0, 80.0, 1.0, m.hsl(hueDraw * 0.3 + 0.5, 0.8, 0.6), 1.5)
  }

  datatype State = State(ripples: seq<Ripple>, lastPointer: Vec3, pointerSpeed: real)

  const Initial := State([], Origin, 0.0)

  /** The click handler: resolve the point, append a click ripple. */
  function OnClick(m: Libm, s: State, hit: Option<Vec3>, cam: Vec3, dir: Vec3,
                   id: string, hueDraw: real): (s': State)
    requires Lawful(m)
    requires hit.None? ==> dir.z != 0.0
    ensures |s'.ripples| == |s.ripples| + 1
    ensures s'.ripples[..|s.ripples|] == s.ripples
    ensures s'.ripples[|s.ripples|] == ClickRipple(m, id, Picking.PickPoint(m, hit, cam, dir), hueDraw)
    ensures s'.lastPointer == s.lastPointer && s'.pointerSpeed == s.pointerSpeed
    ensures AllLive(s.ripples) ==> AllLive(s'.ripples)
  {
    var r := ClickRipple(m, id, Picking.PickPoint(m, hit, cam, dir), hueDraw);
    s.(ripples := s.ripples + [r])
  }

  /** The pointer speed estimate: 10% of the way towards this frame's speed. */
  function SmoothSpeed(previous: real, current: real): (v: real)
    ensures Min(previous, current) <= v <= Max(previous, current)
    ensures 0.0 <= previous && 0.0 <= current ==> 0.0 <= v
    ensures current - v == 0.9 * (current - previous)
  {
    Lerp(previous, current, 0.1)
  }

  /**
    The movement ripple: spawned only for a smoothed speed above 0.5 and a
    random draw below 0.3, sized and weighted by the speed.
   */
  function MovementRipple(m: Libm, speed: real, draw: real, pointer: Vec3, id: string): (r: Option<Ripple>)
    requires Lawful(m)
    ensures r.Some? <==> 0.5 < speed && draw < 0.3
    ensures r.Some? ==> r.value.position == pointer && r.value.radius == 0.0
    ensures r.Some? ==> r.value.maxRadius == 20.0 + speed * 5.0 && 22.5 < r.value.maxRadius
    ensures r.Some? ==> 0.15 < r.value.intensity <= 1.0
    ensures r.Some? ==> r.value.intensity == Min(speed * 0.3, 1.0)
    ensures r.Some? ==> r.value.speed == 0.8 && Live(r.value)
  {
    if 0.5 < speed && draw < 0.3 then
      Some(Ripple(id, pointer, 0.0, 20.0 + speed * 5.0, Min(speed * 0.3, 1.0),
                  m.hsl(0.6, 0.6, 0.7), 0.8))
    else
      None
  }

  /**
    One frame of growth: the radius grows by `speed * delta * 60` and the
    intensity is scaled by `1 - radius / maxRadius`, read before the growth.
   */
  function Advance(r: Ripple, delta: real): (a: Ripple)
    requires r.maxRadius != 0.0
    ensures a.radius - r.radius == r.speed * delta * 60.0
    ensures a.intensity == r.intensity * (1.0 - r.radius / r.maxRadius)
    ensures a.maxRadius == r.maxRadius && a.speed == r.speed
    ensures a.id == r.id && a.position == r.position && a.color == r.color
  {
    r.(radius := r.radius + r.speed * delta * 60.0,
       intensity := r.intensity * (1.0 - r.radius / r.maxRadius))
  }

  /** The retirement test: kept while inside its maximum radius and visible. */
  predicate Survives(r: Ripple) {
    r.radius < r.maxRadius && r.intensity > 0.01
  }

  predicate NonZeroMax(rs: seq<Ripple>) {
    forall i :: 0 <= i < |rs| ==> rs[i].maxRadius != 0.0
  }

  function AdvanceAll(rs: seq<Ripple>, delta: real): (out: seq<Ripple>)
    requires NonZeroMax(rs)
    ensures |out| == |rs|
    ensures forall i :: 0 <= i < |rs| ==> out[i] == Advance(rs[i], delta)
  {
    seq(|rs|, i requires 0 <= i < |rs| => Advance(rs[i], delta))
  }

  /** The per-frame list update: advance every ripple, then drop retired ones. */
  function UpdateRipples(rs: seq<Ripple>, delta: real): (out: seq<Ripple>)
    requires NonZeroMax(rs)
    ensures |out| <= |rs|
    ensures forall r :: r in out ==> Survives(r)
    ensures forall r :: r in out ==> r.radius < r.maxRadius && 0.01 < r.intensity
    ensures forall i :: 0 <= i < |rs| && Survives(Advance(rs[i], delta)) ==> Advance(rs[i], delta) in out
  {
    var advanced := AdvanceAll(rs, delta);
    var out := Pool.Filter(advanced, Survives);
    Pool.FilterCounts(advanced, Survives);
    assert forall i :: 0 <= i < |rs| && Survives(advanced[i]) ==> multiset(advanced)[advanced[i]] > 0;
    out
  }

  /** The update keeps the surviving ripples in their relative order. */
  lemma UpdateKeepsOrder(a: seq<Ripple>, b: seq<Ripple>, delta: real)
    requires NonZeroMax(a) && NonZeroMax(b)
    ensures NonZeroMax(a + b)
    ensures UpdateRipples(a + b, delta) == UpdateRipples(a, delta) + UpdateRipples(b, delta)
  {
    assert AdvanceAll(a + b, delta) == AdvanceAll(a, delta) + AdvanceAll(b, delta);
    Pool.FilterAppend(AdvanceAll(a, delta), AdvanceAll(b, delta), Survives);
  }

  /**
    While a ripple is inside its maximum radius its intensity stays in [0, 1]
    and never increases; its radius never shrinks.
   */
  lemma AdvanceFades(r: Ripple, delta: real)
    requires Live(r) && 0.0 <= delta
    ensures 0.0 <= Advance(r, delta).intensity <= r.intensity <= 1.0
    ensures r.radius <= Advance(r, delta).radius
  {
    var f := 1.0 - r.radius / r.maxRadius;
    FalloffFactor(r.radius, r.maxRadius);
    MulNonNeg(r.intensity, f);
    MulNonNeg(r.intensity, 1.0 - f);
    assert r.intensity - r.intensity * f == Mul(r.intensity, 1.0 - f);
    MulNonNeg(r.speed, delta);
    assert r.speed * delta * 60.0 == Mul(r.speed, delta) * 60.0;
  }

  lemma FalloffFactor(radius: real, maxRadius: real)
    requires 0.0 <= radius < maxRadius
    ensures 0.0 < 1.0 - radius / maxRadius <= 1.0
  {
    DivAtLeastOne(radius, maxRadius);
    assert 0.0 <= radius / maxRadius;
  }

  /** A surviving ripple of a live list is live again. */
  lemma SurvivorLive(r: Ripple, delta: real)
    requires Live(r) && 0.0 <= delta
    requires Survives(Advance(r, delta))
    ensures Live(Advance(r, delta))
  {
    AdvanceFades(r, delta);
  }

  lemma UpdateKeepsLive(rs: seq<Ripple>, delta: real)
    requires AllLive(rs) && 0.0 <= delta
    ensures NonZeroMax(rs)
    ensures AllLive(UpdateRipples(rs, delta))
  {
    var advanced := AdvanceAll(rs, delta);
    forall i | 0 <= i < |rs| && Survives(advanced[i])
      ensures Live(advanced[i])
    {
      SurvivorLive(rs[i], delta);
    }
    var out := UpdateRipples(rs, delta);
    forall j | 0 <= j < |out|
      ensures Live(out[j])
    {
      assert out[j] in Pool.Filter(advanced, Survives);
      var i :| 0 <= i < |advanced| && advanced[i] == out[j];
    }
  }

  /** `k` successive updates all keep the ripple. */
  predicate SurvivesFor(r: Ripple, delta: real, k: nat)
    requires 0.0 < r.maxRadius
    decreases k
  {
    k == 0 || (Survives(Advance(r, delta)) && SurvivesFor(Advance(r, delta), delta, k - 1))
  }

  /** Each kept update moves the front outwards by one step. */
  lemma {:induction false} SurvivalBoundsSteps(r: Ripple, delta: real, k: nat)
    requires Live(r) && 0.0 < delta
    requires SurvivesFor(r, delta, k)
    ensures r.radius + k as real * (r.speed * delta * 60.0) < r.maxRadius
    decreases k
  {
    if k == 0 {
    } else {
      var a := Advance(r, delta);
      SurvivorLive(r, delta);
      SurvivalBoundsSteps(a, delta, k - 1);
      assert k as real * (r.speed * delta * 60.0)
          == (k - 1) as real * (r.speed * delta * 60.0) + r.speed * delta * 60.0;
    }
  }

  /** Frames a ripple can live at a fixed frame time: `ceil(maxRadius / (speed * 60 * delta))`. */
  function RetireBound(r: Ripple, delta: real): (n: int)
    requires 0.0 < r.speed && 0.0 < delta
  {
    Ceil(r.maxRadius / (r.speed * 60.0 * delta))
  }

  /** With a constant frame time, a ripple is removed within `RetireBound` updates. */
  lemma RetiredWithinBound(r: Ripple, delta: real)
    requires Live(r) && 0.0 < delta
    ensures 0 < RetireBound(r, delta)
    ensures !SurvivesFor(r, delta, RetireBound(r, delta) as nat)
  {
    var step := r.speed * delta * 60.0;
    MulPos(r.speed, delta);
    assert 0.0 < step;
    assert r.speed * 60.0 * delta == step;
    var n := RetireBound(r, delta);
    var q := r.maxRadius / step;
    assert 0.0 < q;
    assert q <= n as real;
    MulLe(q, n as real, step);
    assert q * step == r.maxRadius;
    if SurvivesFor(r, delta, n as nat) {
      SurvivalBoundsSteps(r, delta, n as nat);
      assert false;
    }
  }


  /**
    One frame of the generator in source order: estimate pointer speed, maybe
    spawn a movement ripple, remember the pointer, then update the list.
   */
  function Frame(m: Libm, s: State, pointer: Vec3, delta: real, draw: real, id: string): (s': State)
    requires Lawful(m)
    requires AllLive(s.ripples) && 0.0 <= delta
    ensures s'.lastPointer == pointer
    ensures s'.pointerSpeed == SmoothSpeed(s.pointerSpeed, Dist(m, s.lastPointer, pointer))
    ensures 0.0 <= s.pointerSpeed ==> 0.0 <= s'.pointerSpeed
    ensures |s'.ripples| <= |s.ripples| + 1
    ensures AllLive(s'.ripples)
    ensures var spawn := MovementRipple(m, s'.pointerSpeed, draw, pointer, id);
      s'.ripples == UpdateRipples(s.ripples, delta) + (if spawn.Some? then UpdateRipples([spawn.value], delta) else [])
  {
    var speed := SmoothSpeed(s.pointerSpeed, Dist(m, s.lastPointer, pointer));
    var spawned := match MovementRipple(m, speed, draw, pointer, id)
      case Some(r) => [r]
      case None => [];
    var list := s.ripples + spawned;
    assert AllLive(list);
    UpdateKeepsLive(list, delta);
    UpdateKeepsOrder(s.ripples, spawned, delta);
    assert spawned == [] ==> list == s.ripples;
    State(UpdateRipples(list, delta), pointer, speed)
  }
}

=== FILE: sprites.dfy ===
/**
  The point sprites shared by the burst and drag-particle layers: a position,
  a velocity, a size, a life in (0, 1] and a colour, drawn as flat position
  and colour buffers with a size buffer holding `size * life`.
 */
module Sprites {
  import opened Maths

  datatype Sprite = Sprite(position: Vec3, velocity: Vec3, size: real, life: real, color: Rgb)

  datatype Buffers = Buffers(positions: seq<real>, colors: seq<real>, sizes: seq<real>)

  /** The buffers hold exactly the sprites `ps`, in order. */
  predicate Drawn(ps: seq<Sprite>, positions: seq<real>, colors: seq<real>, sizes: seq<real>) {
    && |positions| == 3 * |ps| && |colors| == 3 * |ps| && |sizes| == |ps|
    && (forall k :: 0 <= k < |ps| ==> PositionAt(positions, k) == ps[k].position)
    && (forall k :: 0 <= k < |ps| ==> ColorAt(colors, k) == ps[k].color)
    && (forall k :: 0 <= k < |ps| ==> sizes[k] == ps[k].size * ps[k].life)
  }

  /** Appending one sprite's values to the buffers draws one more sprite. */
  lemma DrawOne(ps: seq<Sprite>, p: Sprite, positions: seq<real>, colors: seq<real>, sizes: seq<real>)
    requires Drawn(ps, positions, colors, sizes)
    ensures Drawn(ps + [p],
                  positions + [p.position.x, p.position.y, p.position.z],
                  colors + [p.color.r, p.color.g, p.color.b],
                  sizes + [p.size * p.life])
  {
    var positions' := positions + [p.position.x, p.position.y, p.position.z];
    var colors' := colors + [p.color.r, p.color.g, p.color.b];
    assert PositionAt(positions', |ps|) == p.position;
    assert ColorAt(colors', |ps|) == p.color;
    assert forall k :: 0 <= k < |ps| ==> PositionAt(positions', k) == PositionAt(positions, k);
    assert forall k :: 0 <= k < |ps| ==> ColorAt(colors', k) == ColorAt(colors, k);
  }

  /** The render step: nothing for no sprites, otherwise the three buffers. */
  method Render(ps: seq<Sprite>) returns (b: Option<Buffers>)
    ensures b.None? <==> |ps| == 0
    ensures b.Some? ==> Drawn(ps, b.value.positions, b.value.colors, b.value.sizes)
  {
    if |ps| == 0 {
      return None;
    }
    var positions: seq<real> := [];
    var colors: seq<real> := [];
    var sizes: seq<real> := [];
    var i := 0;
    while i < |ps|
      invariant 0 <= i <= |ps|
      invariant Drawn(ps[..i], positions, colors, sizes)
    {
      DrawOne(ps[..i], ps[i], positions, colors, sizes);
      assert ps[..i] + [ps[i]] == ps[..i + 1];
      positions := positions + [ps[i].position.x, ps[i].position.y, ps[i].position.z];
      colors := colors + [ps[i].color.r, ps[i].color.g, ps[i].color.b];
      sizes := sizes + [ps[i].size * ps[i].life];
      i := i + 1;
    }
    assert ps[..i] == ps;
    return Some(Buffers(positions, colors, sizes));
  }
}

=== FILE: star_burst.dfy ===
/**
  The click bursts of `StarBurst.tsx`: a click spawns a burst of 30 to 49
  particles fanned evenly round the vertical axis with random speed,
  elevation, size and colour; every frame each particle moves by its velocity,
  falls under gravity, loses `delta / 2` of life and, when audio is present,
  is kicked by one random audio sample. Dead particles and empty bursts are
  removed.
 */
module StarBurst {
  import opened Maths
  import Pool
  import Picking
  import opened Sprites

  /** A burst particle is a sprite. */
  type Particle = Sprite

  datatype Burst = Burst(id: string, position: Vec3, particles: seq<Particle>)

  /** `30 + Math.floor(r * 20)`: a unit draw gives 30 to 49 particles. */
  function ParticleCount(draw: real): (n: int)
    ensures 0.0 <= draw < 1.0 ==> 30 <= n <= 49
  {
    30 + (draw * 20.0).Floor
  }

  /** Launch speed `0.1 + 0.3 r`. */
  function LaunchSpeed(draw: real): (s: real)
    ensures 0.0 <= draw < 1.0 ==> 0.1 <= s < 0.4
  {
    0.1 + draw * 0.3
  }

  /** Elevation `(r - 0.5) * PI / 2`: a unit draw gives [-PI/4, PI/4). */
  function Elevation(draw: real): (e: real)
    ensures 0.0 <= draw < 1.0 ==> -Pi / 4.0 <= e < Pi / 4.0
  {
    (draw - 0.5) * Pi * 0.5
  }

  /** The fan angle of particle `i` of `count`: `i / count` of a full turn. */
  function FanAngle(i: nat, count: nat): (a: real)
    requires i < count
    ensures 0.0 <= a < 2.0 * Pi
  {
    var f := i as real / count as real;
    assert f < 1.0;
    MulLt(f, 1.0, Pi * 2.0);
    f * Pi * 2.0
  }

  lemma MulLt(a: real, b: real, c: real)
    requires 0.0 <= a < b && 0.0 < c
    ensures 0.0 <= a * c < b * c
  {
    MulPos(b - a, c);
    MulNonNeg(a, c);
    assert Mul(b - a, c) == b * c - a * c;
  }

  /**
    Particle `i` of a burst of `count` at `position`. Each particle draws five
    values in order (speed, elevation, size, hue, lightness), after the one draw
    of the particle count.
   */
  function Spawn(m: Libm, rng: Rng, position: Vec3, i: nat, count: nat): (p: Particle)
    requires Lawful(m)
    requires i < count
    ensures p.position == position && p.life == 1.0 && InUnit(p.color)
    ensures NormSq(p.velocity) == Sq(LaunchSpeed(rng(1 + 5 * i)))
    ensures Sq(p.velocity.x) + Sq(p.velocity.z) == Sq(m.cos(Elevation(rng(2 + 5 * i))) * LaunchSpeed(rng(1 + 5 * i)))
    ensures 0.0 <= rng(3 + 5 * i) < 1.0 ==> 0.2 <= p.size < 0.7
  {
    var base := 1 + 5 * i;
    var angle := FanAngle(i, count);
    var speed := LaunchSpeed(rng(base));
    var elevation := Elevation(rng(base + 1));
    var horizontal := m.cos(elevation) * speed;
    var v := Vec3(m.cos(angle) * m.cos(elevation) * speed,
                  m.sin(elevation) * speed,
                  m.sin(angle) * m.cos(elevation) * speed);
    assert v.x == m.cos(angle) * horizontal && v.z == m.sin(angle) * horizontal;
    PolarRadius(m, angle, horizontal);
    PolarRadius(m, elevation, speed);
    Sprite(position, v, rng(base + 2) * 0.5 + 0.2, 1.0,
             m.hsl(0.15 + rng(base + 3) * 0.5, 0.8, 0.5 + rng(base + 4) * 0.5))
  }

  /** A new burst: the count is drawn first; a negative count spawns nothing. */
  function CreateBurst(m: Libm, rng: Rng, position: Vec3, id: string): (b: Burst)
    requires Lawful(m)
    ensures b.position == position && b.id == id
    ensures UnitDraws(rng) ==> 30 <= |b.particles| <= 49
    ensures forall i :: 0 <= i < |b.particles| ==>
      b.particles[i] == Spawn(m, rng, position, i, |b.particles|)
    ensures forall i :: 0 <= i < |b.particles| ==>
      b.particles[i].position == position && b.particles[i].life == 1.0
  {
    var n := ParticleCount(rng(0));
    var count: nat := if n < 0 then 0 else n;
    Burst(id, position, seq(count, i requires 0 <= i < count => Spawn(m, rng, position, i, count)))
  }

  /** The click handler: pick the point and append a burst there. */
  function OnClick(m: Libm, bursts: seq<Burst>, hit: Option<Vec3>, cam: Vec3, dir: Vec3,
                   rng: Rng, id: string): (out: seq<Burst>)
    requires Lawful(m)
    requires hit.None? ==> dir.z != 0.0
    ensures |out| == |bursts| + 1 && out[..|bursts|] == bursts
    ensures out[|bursts|].position == Picking.PickPoint(m, hit, cam, dir)
    ensures out[|bursts|] == CreateBurst(m, rng, Picking.PickPoint(m, hit, cam, dir), id)
    ensures UnitDraws(rng) ==> 30 <= |out[|bursts|].particles| <= 49
  {
    bursts + [CreateBurst(m, rng, Picking.PickPoint(m, hit, cam, dir), id)]
  }

  /**
    The audio value a particle reads: none without audio or with an empty
    buffer, otherwise the sample at `floor(r * length)`, 0 when out of range.
   */
  function AudioSample(audio: Option<seq<real>>, draw: real): (a: Option<real>)
    ensures a.Some? <==> audio.Some? && |audio.value| > 0
    ensures a.Some? && 0.0 <= draw < 1.0 ==>
      a.value == audio.value[ScaledIndex(draw, |audio.value|)]
  {
    if audio.Some? && |audio.value| > 0 then
      Some(SampleOrZero(audio.value, (draw * |audio.value| as real).Floor))
    else
      None
  }

  /**
    The motion of one frame without audio: move by the velocity held at the
    start of the frame, apply gravity, lose life.
   */
  function Coast(p: Particle, delta: real): Particle {
    Sprite(Add(p.position, Scale(p.velocity, delta * 60.0)),
             p.velocity.(y := p.velocity.y - delta * 0.5),
             p.size, p.life - delta * 0.5, p.color)
  }

  /** One frame of a particle: the motion, then the audio kick if any. */
  function Step(p: Particle, delta: real, sample: Option<real>): (q: Particle)
    ensures q.position == Add(p.position, Scale(p.velocity, delta * 60.0))
    ensures p.life - q.life == delta * 0.5
    ensures q.color == p.color
    ensures sample.None? ==> q == Coast(p, delta)
    ensures sample.Some? ==> q.velocity == Scale(Coast(p, delta).velocity, 1.0 + sample.value * 0.2)
    ensures sample.Some? ==> q.size == p.size * (1.0 + sample.value * 0.5)
  {
    var c := Coast(p, delta);
    match sample
    case None => c
    case Some(a) => c.(velocity := Scale(c.velocity, 1.0 + a * 0.2), size := p.size * (1.0 + a * 0.5))
  }

  /** `n` frames of constant length without audio. */
  function Fly(p: Particle, delta: real, n: nat): (q: Particle)
    decreases n
  {
    if n == 0 then p else Coast(Fly(p, delta, n - 1), delta)
  }

  /**
    Without audio a particle keeps its horizontal velocity, its vertical
    velocity drops by `delta / 2` per frame, and it loses `delta / 2` of life
    per frame.
   */
  lemma {:induction false} FlyVelocity(p: Particle, delta: real, n: nat)
    ensures Fly(p, delta, n).velocity.x == p.velocity.x
    ensures Fly(p, delta, n).velocity.z == p.velocity.z
    ensures Fly(p, delta, n).velocity.y == p.velocity.y - n as real * (delta * 0.5)
    ensures Fly(p, delta, n).life == p.life - n as real * (delta * 0.5)
    decreases n
  {
    if n != 0 {
      FlyVelocity(p, delta, n - 1);
      assert n as real * (delta * 0.5) == (n - 1) as real * (delta * 0.5) + delta * 0.5;
    }
  }

  /**
    Without audio a particle follows a parabola: it moves uniformly in the
    horizontal plane, and its height is the sum of the falling per-frame
    vertical velocities.
   */
  lemma {:induction false} FlyIsBallistic(p: Particle, delta: real, n: nat)
    ensures Fly(p, delta, n).position.x == p.position.x + n as real * (delta * 60.0) * p.velocity.x
    ensures Fly(p, delta, n).position.z == p.position.z + n as real * (delta * 60.0) * p.velocity.z
    ensures Fly(p, delta, n).position.y ==
      p.position.y + (delta * 60.0) * (n as real * p.velocity.y - Triangle(n) * (delta * 0.5))
  {
    FlyHorizontal(p, delta, n);
    FlyHeight(p, delta, n);
  }

  lemma {:induction false} FlyHorizontal(p: Particle, delta: real, n: nat)
    ensures Fly(p, delta, n).position.x == p.position.x + n as real * (delta * 60.0) * p.velocity.x
    ensures Fly(p, delta, n).position.z == p.position.z + n as real * (delta * 60.0) * p.velocity.z
  {
    FlyHorizontalSteps(p, delta, n);
    LineClosedForm(p.position.x, p.velocity.x, delta * 60.0, n);
    LineClosedForm(p.position.z, p.velocity.z, delta * 60.0, n);
  }

  /** The position after `n` steps of `v * h` from `x0`. */
  function Line(x0: real, v: real, h: real, n: nat): real
    decreases n
  {
    if n == 0 then x0 else Line(x0, v, h, n - 1) + v * h
  }

  lemma {:induction false} FlyHorizontalSteps(p: Particle, delta: real, n: nat)
    ensures Fly(p, delta, n).position.x == Line(p.position.x, p.velocity.x, delta * 60.0, n)
    ensures Fly(p, delta, n).position.z == Line(p.position.z, p.velocity.z, delta * 60.0, n)
    decreases n
  {
    if n != 0 {
      var q := Fly(p, delta, n - 1);
      var h := delta * 60.0;
      assert Fly(p, delta, n) == Coast(q, delta);
      assert q.velocity.x == p.velocity.x && q.velocity.z == p.velocity.z by {
        FlyVelocity(p, delta, n - 1);
      }
      assert q.position.x == Line(p.position.x, p.velocity.x, h, n - 1)
          && q.position.z == Line(p.position.z, p.velocity.z, h, n - 1) by {
        FlyHorizontalSteps(p, delta, n - 1);
      }
    }
  }

  lemma {:induction false} LineClosedForm(x0: real, v: real, h: real, n: nat)
    ensures Line(x0, v, h, n) == x0 + n as real * h * v
    decreases n
  {
    if n != 0 {
      LineClosedForm(x0, v, h, n - 1);
      var k := (n - 1) as real;
      assert n as real == k + 1.0;
      assert (k + 1.0) * h * v == k * h * v + h * v;
    }
  }

  lemma {:induction false} FlyHeight(p: Particle, delta: real, n: nat)
    ensures Fly(p, delta, n).position.y ==
      p.position.y + (delta * 60.0) * (n as real * p.velocity.y - Triangle(n) * (delta * 0.5))
  {
    FlyHeightSteps(p, delta, n);
    HeightClosedForm(p.position.y, p.velocity.y, delta * 60.0, delta * 0.5, n);
  }

  /**
    The height after `n` frames: each frame adds the vertical velocity of that
    frame, `vy - k g` in frame `k`, times the step `h`.
   */
  function Height(y0: real, vy: real, h: real, g: real, n: nat): real
    decreases n
  {
    if n == 0 then y0 else Height(y0, vy, h, g, n - 1) + (vy - (n - 1) as real * g) * h
  }

  lemma {:induction false} FlyHeightSteps(p: Particle, delta: real, n: nat)
    ensures Fly(p, delta, n).position.y == Height(p.position.y, p.velocity.y, delta * 60.0, delta * 0.5, n)
    decreases n
  {
    if n != 0 {
      var q := Fly(p, delta, n - 1);
      FlyHeightSteps(p, delta, n - 1);
      FlyVelocity(p, delta, n - 1);
      assert q.velocity.y == p.velocity.y - (n - 1) as real * (delta * 0.5);
    }
  }

  lemma {:induction false} HeightClosedForm(y0: real, vy: real, h: real, g: real, n: nat)
    ensures Height(y0, vy, h, g, n) == y0 + h * (n as real * vy - Triangle(n) * g)
    decreases n
  {
    if n != 0 {
      HeightClosedForm(y0, vy, h, g, n - 1);
      HeightStep(y0, vy, Height(y0, vy, h, g, n - 1), vy - (n - 1) as real * g, n, h, g, Triangle(n - 1), Triangle(n));
    }
  }

  lemma HeightStep(y0: real, vy: real, y: real, wy: real, n: nat, h: real, g: real, t: real, t': real)
    requires 0 < n
    requires wy == vy - (n - 1) as real * g
    requires y == y0 + h * ((n - 1) as real * vy - t * g)
    requires t' == t + (n - 1) as real
    ensures y + wy * h == y0 + h * (n as real * vy - t' * g)
  {
  }

  /** `0 + 1 + ... + (n - 1)`. */
  function Triangle(n: nat): (t: real)
    ensures 0.0 <= t
    decreases n
  {
    if n == 0 then 0.0 else Triangle(n - 1) + (n - 1) as real
  }

  predicate Alive(p: Particle) {
    p.life > 0.0
  }

  predicate NonEmpty(b: Burst) {
    |b.particles| > 0
  }

  /** The per-particle draws of one frame, by burst index and particle index. */
  type FrameDraws = (nat, nat) -> real

  /** One frame of a burst: step every particle, drop the dead ones. */
  function UpdateBurst(b: Burst, j: nat, delta: real, audio: Option<seq<real>>, draws: FrameDraws): (out: Burst)
    ensures out.id == b.id && out.position == b.position
    ensures |out.particles| <= |b.particles|
    ensures forall q :: q in out.particles ==> Alive(q)
    ensures forall q :: q in out.particles ==>
      (exists i :: 0 <= i < |b.particles| && q == Step(b.particles[i], delta, AudioSample(audio, draws(j, i))))
    ensures forall i :: 0 <= i < |b.particles| && Alive(Step(b.particles[i], delta, AudioSample(audio, draws(j, i)))) ==>
      Step(b.particles[i], delta, AudioSample(audio, draws(j, i))) in out.particles
  {
    var ps := b.particles;
    var stepped := seq(|ps|, i requires 0 <= i < |ps| => Step(ps[i], delta, AudioSample(audio, draws(j, i))));
    Pool.FilterKeepsPassing(stepped, Alive);
    forall i | 0 <= i < |ps| && Alive(Step(ps[i], delta, AudioSample(audio, draws(j, i))))
      ensures Step(ps[i], delta, AudioSample(audio, draws(j, i))) in Pool.Filter(stepped, Alive)
    {
      assert stepped[i] == Step(ps[i], delta, AudioSample(audio, draws(j, i)));
    }
    b.(particles := Pool.Filter(stepped, Alive))
  }

  /** The frame update of all bursts: update each, then drop empty bursts. */
  function UpdateBursts(bs: seq<Burst>, delta: real, audio: Option<seq<real>>, draws: FrameDraws): (out: seq<Burst>)
    ensures |out| <= |bs|
    ensures forall b :: b in out ==> NonEmpty(b) && forall q :: q in b.particles ==> Alive(q)
    ensures forall b :: b in out ==> exists j :: 0 <= j < |bs| && b == UpdateBurst(bs[j], j, delta, audio, draws)
    ensures forall j :: 0 <= j < |bs| && NonEmpty(UpdateBurst(bs[j], j, delta, audio, draws)) ==>
      UpdateBurst(bs[j], j, delta, audio, draws) in out
  {
    var updated := seq(|bs|, j requires 0 <= j < |bs| => UpdateBurst(bs[j], j, delta, audio, draws));
    Pool.FilterKeepsPassing(updated, NonEmpty);
    forall j | 0 <= j < |bs| && NonEmpty(UpdateBurst(bs[j], j, delta, audio, draws))
      ensures UpdateBurst(bs[j], j, delta, audio, draws) in Pool.Filter(updated, NonEmpty)
    {
      assert updated[j] == UpdateBurst(bs[j], j, delta, audio, draws);
    }
    Pool.Filter(updated, NonEmpty)
  }

  /** Every particle of every burst has life at most `bound`. */
  predicate LivesAtMost(bs: seq<Burst>, bound: real) {
    forall j, i :: 0 <= j < |bs| && 0 <= i < |bs[j].particles| ==> bs[j].particles[i].life <= bound
  }

  /** What the burst list satisfies between frames. */
  predicate Valid(bs: seq<Burst>) {
    && (forall j :: 0 <= j < |bs| ==> NonEmpty(bs[j]))
    && (forall j, i :: 0 <= j < |bs| && 0 <= i < |bs[j].particles| ==> Alive(bs[j].particles[i]))
  }

  /** A frame lowers every life bound by `delta / 2` and keeps the list valid. */
  lemma UpdateLowersLives(bs: seq<Burst>, bound: real, delta: real, audio: Option<seq<real>>, draws: FrameDraws)
    requires LivesAtMost(bs, bound)
    ensures LivesAtMost(UpdateBursts(bs, delta, audio, draws), bound - delta * 0.5)
    ensures Valid(UpdateBursts(bs, delta, audio, draws))
  {
    var out := UpdateBursts(bs, delta, audio, draws);
    forall j, i | 0 <= j < |out| && 0 <= i < |out[j].particles|
      ensures out[j].particles[i].life <= bound - delta * 0.5
    {
      assert out[j] in out;
      var j' :| 0 <= j' < |bs| && out[j] == UpdateBurst(bs[j'], j', delta, audio, draws);
      assert out[j].particles[i] in out[j].particles;
      var i' :| 0 <= i' < |bs[j'].particles| &&
        out[j].particles[i] == Step(bs[j'].particles[i'], delta, AudioSample(audio, draws(j', i')));
    }
    forall j | 0 <= j < |out|
      ensures NonEmpty(out[j]) && forall i :: 0 <= i < |out[j].particles| ==> Alive(out[j].particles[i])
    {
      assert out[j] in out;
    }
  }

  /** A valid list whose lives are bounded by a non-positive number is empty. */
  lemma NoLivesLeft(bs: seq<Burst>, bound: real)
    requires Valid(bs) && LivesAtMost(bs, bound)
    ensures 0 < |bs| ==> 0.0 < bound
  {
    if 0 < |bs| {
      assert 0.0 < bs[0].particles[0].life <= bound;
    }
  }

  function Sum(xs: seq<real>): real
    decreases |xs|
  {
    if |xs| == 0 then 0.0 else xs[0] + Sum(xs[1..])
  }

  /** Frames applied in order, with the audio buffer and draws of each frame. */
  function Run(bs: seq<Burst>, deltas: seq<real>, audio: seq<Option<seq<real>>>, draws: nat -> FrameDraws): (out: seq<Burst>)
    requires |audio| == |deltas|
    decreases |deltas|
  {
    if |deltas| == 0 then bs
    else Run(UpdateBursts(bs, deltas[0], audio[0], draws(0)), deltas[1..], audio[1..], (k: nat) => draws(k + 1))
  }

  /** Over a run every life bound falls by half the elapsed time. */
  lemma {:induction false} RunLowersLives(bs: seq<Burst>, bound: real, deltas: seq<real>,
                                          audio: seq<Option<seq<real>>>, draws: nat -> FrameDraws)
    requires |audio| == |deltas| && 0 < |deltas|
    requires LivesAtMost(bs, bound)
    ensures LivesAtMost(Run(bs, deltas, audio, draws), bound - Sum(deltas) * 0.5)
    ensures Valid(Run(bs, deltas, audio, draws))
    decreases |deltas|
  {
    var next := UpdateBursts(bs, deltas[0], audio[0], draws(0));
    UpdateLowersLives(bs, bound, deltas[0], audio[0], draws(0));
    if |deltas| > 1 {
      RunLowersLives(next, bound - deltas[0] * 0.5, deltas[1..], audio[1..], (k: nat) => draws(k + 1));
    }
  }

  /**
    Bursts are short-lived: once at least two seconds have elapsed over a
    run, no burst created with life 1 is left, whatever the audio.
   */
  lemma BurstsExpire(bs: seq<Burst>, deltas: seq<real>, audio: seq<Option<seq<real>>>, draws: nat -> FrameDraws)
    requires |audio| == |deltas| && 0 < |deltas|
    requires LivesAtMost(bs, 1.0)
    requires 2.0 <= Sum(deltas)
    ensures Run(bs, deltas, audio, draws) == []
  {
    RunLowersLives(bs, 1.0, deltas, audio, draws);
    NoLivesLeft(Run(bs, deltas, audio, draws), 1.0 - Sum(deltas) * 0.5);
  }

  /** The particles of all bursts in draw order. */
  function Flatten(bs: seq<Burst>): (ps: seq<Particle>)
    decreases |bs|
  {
    if |bs| == 0 then [] else Flatten(bs[..|bs| - 1]) + bs[|bs| - 1].particles
  }

  /** Flattening a list of non-empty bursts gives at least one particle per burst. */
  lemma {:induction false} FlattenCovers(bs: seq<Burst>)
    requires forall j :: 0 <= j < |bs| ==> NonEmpty(bs[j])
    ensures |bs| <= |Flatten(bs)|
    decreases |bs|
  {
    if |bs| != 0 {
      FlattenCovers(bs[..|bs| - 1]);
    }
  }

  /**
    The render step: flat positions, colours and `size * life` sizes of every
    particle of every burst in order; nothing when there is no particle.
   */
  method Render(bs: seq<Burst>) returns (b: Option<Buffers>)
    ensures b.None? <==> |Flatten(bs)| == 0
    ensures b.Some? ==> Drawn(Flatten(bs), b.value.positions, b.value.colors, b.value.sizes)
  {
    var positions: seq<real> := [];
    var colors: seq<real> := [];
    var sizes: seq<real> := [];
    var j := 0;
    while j < |bs|
      invariant 0 <= j <= |bs|
      invariant Drawn(Flatten(bs[..j]), positions, colors, sizes)
    {
      var ps := bs[j].particles;
      var i := 0;
      while i < |ps|
        invariant 0 <= i <= |ps|
        invariant Drawn(Flatten(bs[..j]) + ps[..i], positions, colors, sizes)
      {
        DrawOne(Flatten(bs[..j]) + ps[..i], ps[i], positions, colors, sizes);
        assert (Flatten(bs[..j]) + ps[..i]) + [ps[i]] == Flatten(bs[..j]) + ps[..i + 1];
        positions := positions + [ps[i].position.x, ps[i].position.y, ps[i].position.z];
        colors := colors + [ps[i].color.r, ps[i].color.g, ps[i].color.b];
        sizes := sizes + [ps[i].size * ps[i].life];
        i := i + 1;
      }
      assert bs[..j + 1][..j] == bs[..j];
      assert ps[..i] == ps;
      j := j + 1;
    }
    assert bs[..j] == bs;
    if |positions| == 0 {
      return None;
    }
    return Some(Buffers(positions, colors, sizes));
  }

  /** Between frames nothing is drawn exactly when there is no burst. */
  lemma RenderEmptyIffNoBursts(bs: seq<Burst>)
    requires Valid(bs)
    ensures |Flatten(bs)| == 0 <==> |bs| == 0
  {
    FlattenCovers(bs);
  }
}
